=== FILE: README.md ===
# KaleidoID embedding matching engine, in Dafny

This project models the recognition core of KaleidoID, the class `KaleidoRecognizer`
in `face_recognizer.py`, and proves properties of that model.

The recognizer keeps a gallery of enrolled face embeddings. Each embedding is the
standardised vector of 468 MediaPipe face-mesh landmarks × 3 coordinates, so 1404
reals. Each is enrolled with a person id, a display name and the photo it came
from. The recognizer also keeps a cache from photo id to embedding, a recognition
threshold and a few reported settings.

Recognition is a linear scan that replaces the running best (initially 0.0)
whenever an entry's cosine-derived similarity is strictly above both it and the
threshold. The answer is therefore the first entry with the highest accepted
score, or no match when no score beats the threshold. The gallery is filled in three ways:
- one embedding at a time (`add_existing_embedding`, `train_from_*`);
- per person from the store, through the cache, the stored embedding or a fresh
  extraction (`batch_train_person`);
- in full from the store (`load_embeddings_from_database`).

## Modules

- `wrappers.dfy`: `Option` and `Result`.
- `numerics.dfy`: `_normalize_embedding` and `_calculate_similarity` over exact reals. NumPy's square root is an oracle `Root` that is only known to be non-negative.
- `text.dfy`: `str.strip()` and the display name `f"{last} {first}".strip()`.
- `gallery.dfy`: the four index-aligned lists `known_embeddings`, `known_names`, `known_ids` and `known_photo_ids`. They are one sequence of `Entry` records, so they cannot fall out of alignment. Append and remove-by-photo live here.
- `matcher.dfy`: `recognize_face` as a left fold. It is proved equal to a declarative "first maximal accepted score" reference.
- `extractor.dfy`: the MediaPipe, OpenCV and NumPy calls, as a `Backend` of function values. Also `extract_embedding`, `extract_embedding_from_bytes`, and the padding and counting of `detect_faces`.
- `store.dfy`: the database as the recognizer sees it. It has people, each person's photo rows, the per-photo reads (value, `None`, or an exception) and `update_photo_embedding`.
- `recognizer.dfy`: the recognizer state `Engine` and its single-step operations. These are add, train, clear, remove, threshold, model info and recognize. `Valid` is the invariant that every operation preserves.
- `training.dfy`: `batch_train_person` and `load_embeddings_from_database`. Each has a reference definition of its outcome and a lemma linking the loop to it.
- `pipeline.dfy`: `recognize_face_in_image` as written, and corrected (see Findings).

Every stateful method is a pure function from the old `Engine` to the new one and
its answer. Exceptions caught inside the source become the value the `except`
branch returns. An exception that propagates becomes a `Failure`.

## Model

| member | source | states |
|---|---|---|
| `Numerics.Standardize` | face_recognizer.py:616-626 | the standardised vector has the input's length and mean exactly zero, whichever branch of `std > 0` is taken |
| `Numerics.StandardizedUnitVariance` | face_recognizer.py:616-626 | with an exact square root and a positive deviation, the standardised vector has population variance one |
| `Numerics.Similarity` | face_recognizer.py:628-641 | vectors of different lengths score 0.0, the value the `except` branch returns when `np.dot` raises |
| `Numerics.SimilaritySymmetric` | face_recognizer.py:628-641 | the score does not depend on which vector is the query |
| `Numerics.SelfSimilarityBelowOne` | face_recognizer.py:628-641 | because of the 1e-10 added to each norm, a vector scored against itself lies in [0.5, 1), so at the maximal threshold 1.0 even an exact match is rejected |
| `Text.Strip` | face_recognizer.py:598-602 | the result is a slice of the input with only whitespace outside it, and has no whitespace at either end |
| `Text.StripIdempotent` | face_recognizer.py:598-602 | stripping twice is stripping once |
| `Text.DisplayNameJoins` | face_recognizer.py:598-602 | two non-empty names without surrounding whitespace are joined by exactly one space |
| `Text.DisplayNameFamilyOnly` | face_recognizer.py:474 | with no given name, the display name is the stripped family name, as `batch_train_person` passes only `last_name` |
| `Gallery.IndexOfPhoto` | face_recognizer.py:556-557 | finds no index exactly when the photo id is absent, and otherwise the first index holding it, like `list.index` |
| `Gallery.Add` | face_recognizer.py:594-614 | appends exactly one entry and keeps the old entries as a prefix; the entry carries the vector, the photo id and the stripped "last first" name; a missing person id becomes `len(known_ids) + 1` |
| `Gallery.RemovePhoto` | face_recognizer.py:556-561 | reports success exactly when the photo is enrolled; then cuts out the first entry for it and keeps every other entry in order; otherwise changes nothing |
| `Gallery.RemoveAfterAdd` | face_recognizer.py:594-614 | adding an entry for a photo not yet enrolled and removing that photo restores the gallery |
| `Gallery.RemoveTakesOne` | face_recognizer.py:556-561 | removal takes out exactly one entry, the first for the photo, as a multiset |
| `Gallery.RemoveUniquePhoto` | face_recognizer.py:556-561 | when the photo occurs once, no entry for it remains after removal |
| `Gallery.UniquePeopleBounds` | face_recognizer.py:581 | the number of distinct person ids never exceeds the number of entries, and is zero only for an empty gallery |
| `Gallery.SyntheticIdCanCollide` | face_recognizer.py:605-608 | a synthetic id `len(known_ids) + 1` can equal an id already enrolled, so two people can share one id |
| `Matcher.ScanFromDescribes` | face_recognizer.py:262-268 | the loop from any point keeps the running best equal to the reference answer for the scores read so far |
| `Matcher.ScanCorrect` | face_recognizer.py:258-271 | the scan finds no index exactly when no score is accepted (and keeps 0.0); otherwise it finds the one first index of the maximal accepted score, with that score |
| `Matcher.Recognize` | face_recognizer.py:248-271 | `(None, 0.0, None)` exactly when the query is missing or no score beats both 0.0 and the threshold; otherwise the id, score and photo id of the first maximal accepted entry, with a confidence above the threshold |
| `Matcher.TieKeepsEarlier` | face_recognizer.py:265 | a later entry with a score equal to an accepted earlier one is never the answer |
| `Matcher.SingleEntry` | face_recognizer.py:248-271 | with one entry, the entry is reported exactly when its score is accepted |
| `Matcher.RemovedPhotoNotRecognized` | face_recognizer.py:551-572 | after removing the only entry for a photo, recognition never reports that photo |
| `Extractor.PadBox` | face_recognizer.py:225-229 | the padded box lies inside the image; it starts at most 20 pixels before the box, reaches 20 pixels beyond it unless the edge cuts it, and is exactly the box grown by 20 on each side when there is room |
| `Extractor.Located` | face_recognizer.py:211-213 | keeps only detections with location data, each taken from the input; every located detection is kept, in detector order, at the position given by the number of located detections before it; when every detection is located the list is kept whole |
| `Extractor.FacesOf` | face_recognizer.py:209-238 | detections without location data are skipped; the i-th face is the i-th located detection's box padded as `PadBox` does, with its first score (or 0.0) as confidence |
| `Extractor.DetectFaces` | face_recognizer.py:197-246 | a two-dimensional (grayscale) array gives no faces, because unpacking its shape into three names raises and the `except` answers `[]`; otherwise the i-th face is the padded i-th located detection; every box lies inside the image |
| `Extractor.ExtractEmbedding` | face_recognizer.py:73-110 | an embedding exists exactly when the mesh yields 1404 coordinates, and it then has that length and mean zero |
| `Extractor.ExtractFromBytes` | face_recognizer.py:162-178 | bytes that do not decode give no embedding; decoded bytes give the image's embedding |
| `Extractor.ExtractedStandardized` | face_recognizer.py:73-110 | with an exact square root and a positive deviation, an extracted embedding has variance one |
| `Store.SaveEmbedding` | face_database.py:370-395 | the photo's row now holds the vector; people and every other row are untouched |
| `Store.SaveThenRead` | face_database.py:370-413 | reading a photo's embedding after saving a vector for it gives that vector |
| `Recognizer.Init` | face_recognizer.py:14-62 | a fresh recognizer is valid, empty, has an empty cache, has threshold 0.6 and needs training |
| `Recognizer.AddToMemory` | face_recognizer.py:594-614 | appends through `Gallery.Add`, leaves the cache and settings alone, and keeps the recognizer valid for a vector of length 1404 |
| `Recognizer.AddExistingEmbedding` | face_recognizer.py:448-460 | accepts exactly a present vector of length 1404 and then appends it; otherwise answers false and changes nothing; validity is kept |
| `Recognizer.TrainFromImage` | face_recognizer.py:402-416 | succeeds exactly when extraction yields an embedding, and then enrols it; otherwise changes nothing |
| `Recognizer.TrainFromBytes` | face_recognizer.py:418-431 | undecodable bytes change nothing and answer false; decodable bytes behave as training from the decoded image |
| `Recognizer.ClearEmbeddings` | face_recognizer.py:543-549 | empties the gallery and keeps the cache and settings |
| `Recognizer.ClearForgetsAll` | face_recognizer.py:543-549 | after clearing, no query is recognized and the status is back to needing training, while the cache keeps its size |
| `Recognizer.RemoveByPhotoId` | face_recognizer.py:551-572 | answers true exactly when the photo is enrolled; then removes its first entry and its cache slot and keeps every other cached vector; otherwise changes nothing; validity is kept |
| `Recognizer.RemoveAfterAddExisting` | face_recognizer.py:448-460 | adding an embedding for a new photo and then removing that photo restores the recognizer exactly |
| `Recognizer.SafeFloat` | face_recognizer.py:64-71 | a number passes unchanged; `None` and input `float()` rejects with `TypeError` or `ValueError` give the default; an integer too large for a float raises `OverflowError`, which is not caught |
| `Recognizer.Clamp` | face_recognizer.py:574-576 | the result lies in [0.1, 1.0]; in-range values are kept; values below or above go to the nearest bound |
| `Recognizer.SetThreshold` | face_recognizer.py:574-576 | the call raises exactly for an overflowing input; otherwise the threshold becomes the clamped number, or 0.6 for `None` or non-numeric input, it lands in [0.1, 1.0] and nothing else changes |
| `Recognizer.ClampIdempotent` | face_recognizer.py:574-576 | clamping twice is clamping once |
| `Recognizer.SetCurrentThreshold` | face_recognizer.py:574-576 | re-setting a valid recognizer's own threshold changes nothing |
| `Recognizer.ModelInfo` | face_recognizer.py:579-592 | the reported counts equal the gallery and cache sizes; the number of people is the size of `set(known_ids)`, at most the entries and zero only when empty; the threshold, detection confidence and landmark flag are reported as set; status is ready exactly when something is enrolled |
| `Recognizer.RecognizeQuery` | face_recognizer.py:248-271 | on a valid recognizer, a match is reported exactly when some entry's similarity exceeds the threshold; the match is an enrolled entry and its confidence is above the threshold |
| `Training.TrainCached` | face_recognizer.py:471-475 | the cache branch counts the photo exactly when its cached vector has length 1404, appending one entry for the person and photo that holds the cached vector; the cache and the store are not changed |
| `Training.TrainStored` | face_recognizer.py:476-483 | the stored-embedding branch raises exactly when the read raises; a stored vector of length 1404 is counted, enrolled and cached under the photo; otherwise it skips without re-extracting; the store is not changed |
| `Training.TrainExtracted` | face_recognizer.py:484-495 | the extraction branch raises exactly when the image read raises; when extraction succeeds it counts the photo, enrols and caches the extracted embedding, and the store becomes `update_photo_embedding` of that embedding; otherwise nothing changes |
| `Training.TrainOne` | face_recognizer.py:470-495 | one photo is handled by the first branch that applies: the entry, the cached vector and the store update are that branch's |
| `Training.TrainEach` | face_recognizer.py:469-495 | the loop grows the gallery by exactly the photos counted, with entries for the person and those photos, each holding the vector cached for its photo; it keeps the old gallery as a prefix, keeps every cached vector, and keeps settings and validity |
| `Training.BatchTrainPerson` | face_recognizer.py:462-502 | the count is at most the number of photos; the old gallery is a prefix; new entries are the person's, named after the stripped person name, each holding the vector cached for its photo; a non-zero count is the exact growth; cache, settings and validity are kept |
| `Training.TrainEachReference` | face_recognizer.py:469-495 | with distinct photo ids, the loop raises exactly when some photo's applicable read raises; otherwise it counts exactly the photos its first applicable branch enrols and leaves each of them cached |
| `Training.TrainEachWrites` | face_recognizer.py:469-495 | with distinct photo ids, the store afterwards holds exactly the reference write-backs up to the first raising read, the cache changes only at these photos, and each cached photo holds the vector of its branch (cached, stored or extracted) |
| `Training.BatchMatchesReference` | face_recognizer.py:462-502 | a raising read makes the answer 0; otherwise the answer is the reference count, the gallery grows by it, and every trained photo is cached for the next run; in both cases the store holds the reference write-backs, every new entry holds the vector of its photo's branch, and the gallery has grown by the trainable photos before the first raising read, as nothing is undone |
| `Training.TrainEachGrowth` | face_recognizer.py:469-495 | with distinct photo ids, the loop counts exactly the trainable photos before the first raising read, whether or not a read raises |
| `Training.RaiseKeepsEnrolled` | face_recognizer.py:462-502 | a read that raises after a trainable photo makes the answer 0 while the gallery keeps the photos already enrolled |
| `Training.LoadVector` | face_recognizer.py:520-534 | a stored vector of length 1404 is appended as the person's entry and cached under its photo |
| `Training.LoadRow` | face_recognizer.py:517-534 | one row raises exactly when its read raises and otherwise appends its reference entries |
| `Training.LoadRows` | face_recognizer.py:516-534 | one person's rows append exactly that person's reference entries unless a read raises; the cache keeps mirroring the gallery |
| `Training.LoadPeople` | face_recognizer.py:515-534 | all people's rows append exactly the reference entries, in people-then-photos order, unless a read raises |
| `Training.LoadFromStore` | face_recognizer.py:504-541 | without a raising read the gallery is exactly the reference entries and the answer is their number; otherwise the answer is 0 and the gallery keeps the entries loaded before the raise, a prefix of the reference entries; the cache is always the one the gallery determines; settings and validity are kept |
| `Training.LoadIdempotent` | face_recognizer.py:504-541 | loading twice from the same store gives the same recognizer and answer as loading once |
| `Training.CacheOfMirrors` | face_recognizer.py:533 | after a load the cached photo ids are exactly the enrolled ones, and each cached vector is the vector of an entry for its photo |
| `Pipeline.Examine` | face_recognizer.py:289-310 | one face's result copies its box and confidence, and reports a match only when the crop yields an embedding that scores above the threshold |
| `Pipeline.RecognizeInImageAsWritten` | face_recognizer.py:273-312 | fails exactly when no face is detected, and otherwise answers only the result for the last detected face |
| `Pipeline.RecognizeFaces` | face_recognizer.py:287-310 | with the check inside the loop, there is one result per face inside the image, in detection order |
| `Pipeline.RecognizeInImage` | face_recognizer.py:273-312 | the corrected method answers one result per detected face, the i-th for the i-th face |
| `Pipeline.AsWrittenKeepsLastFace` | face_recognizer.py:287-289 | the method as written answers the last element of the corrected answer only, fails where the corrected one is empty, and loses every face but the last when there are two or more |

## Left out

- `Numerics.Similarity`: the promise that the score lies in [0, 1] is not stated. It needs the Cauchy–Schwarz inequality over the square-root oracle, which the model does not develop. Only the self-score bound (`Numerics.SelfSimilarityBelowOne`) is proved.
- Float32 arithmetic, NaN and infinities: vectors are exact reals. `safe_float` inputs are a number, `None`, something `float()` rejects, or an integer too large for a float.
- MediaPipe, OpenCV, NumPy and PIL are function values of a `Backend`. This covers the face mesh, the detector, `imdecode`, the array slice, and the square root behind `np.std` and `np.linalg.norm`. Detector and mesh configuration (face_recognizer.py:21-39) and colour conversion are outside the model.
- `extract_embedding_from_pil` and `train_from_pil`: the PIL-to-array conversion is taken as the identity, so both are `Extractor.ExtractEmbedding` and `Recognizer.TrainFromImage`.
- `extract_embedding_with_landmarks` and the `extract_landmarks=True` path of `recognize_face_in_image`: they give the same embedding plus pixel landmarks for drawing.
- `Extractor.DetectFaces`: the image's dimensionality is modelled, its channel count is not. A three-dimensional array whose channel count `cv2.cvtColor` refuses makes the source answer `[]`; the model leaves that to the detector function.
- The conversion `int(bbox.xmin * w)` of relative boxes to pixels (face_recognizer.py:219-222): a detection carries its pixel box, and padding is modelled from there on.
- Keypoints, drawing, landmark style, `toggle_landmarks`, `draw_detection` and `cleanup`: rendering and resource release.
- Person dictionaries with a key present but set to `None`: `PersonData` distinguishes only present and missing keys.
- Store queries that list rows (`get_all_people`, `get_person_photos`) always succeed. Only per-photo reads can raise. The rows are the ones listed when the loop starts.
- `Training.TrainExtracted`: a failed `update_photo_embedding`, which answers False and is ignored by the caller, is not modelled; the store always receives the vector. The second `extract_embedding_from_pil` call is assumed to return the same embedding as the first, as the extraction is deterministic.
- The JSON fallback of `get_photo_embedding` and the BLOB encoding: a stored embedding is the decoded vector or nothing.
- `Training.BatchMatchesReference`: stated for photo lists with distinct ids (the ids are primary keys of the photo table).
- Logging, the database schema, settings, backups and exports, the Tkinter window, the error-handling decorators and packaging are outside the recognition core.

## Findings

| source | as written | input that shows it | evidently intended | confidence | as-written member | corrected member |
|---|---|---|---|---|---|---|
| face_recognizer.py:287-310 | the bounds check, crop, extraction and recognition are indented after the `for` loop, so they run once, for the last detected face; with no faces the loop variables are read unbound and `UnboundLocalError` propagates | an image in which the detector locates two faces (one result instead of two); an image without faces (an exception instead of an empty list) | one result per detected face, in detection order, and an empty list for no faces | high; not executed | `Pipeline.RecognizeInImageAsWritten`, with the discrepancy in `Pipeline.AsWrittenKeepsLastFace` | `Pipeline.RecognizeInImage` |

A related hazard is modelled as written rather than corrected. `_add_embedding_to_memory` fills a missing person id with `len(known_ids) + 1`, and `Gallery.SyntheticIdCanCollide` shows this can equal an enrolled id. The training paths modelled here always pass an id.

=== FILE: extractor.dfy ===
/**
 * The foreign detector and landmark libraries, and what the recognizer does
 * with their answers: `extract_embedding`, `extract_embedding_from_bytes` and
 * the bounding-box padding of `detect_faces`.
 */
module Extractor {
  import opened Wrappers
  import opened Numerics
  import opened Gallery

  /**
   * An image as the libraries see it: its size, whether the array is
   * two-dimensional (a grayscale frame with no channel axis), and its samples.
   */
  datatype Image = Image(height: nat, width: nat, twoDimensional: bool, pixels: seq<int>)

  /** A face box in pixels: left, top, width, height. */
  datatype Box = Box(x: int, y: int, width: int, height: int)

  /**
   * A raw detection: its pixel box once the relative box has been scaled to the
   * image (`None` when the detection has no location data) and its score list.
   */
  datatype Detection = Detection(box: Option<Box>, score: seq<real>)

  /** An entry of the list `detect_faces` returns: padded box and confidence. */
  datatype Face = Face(box: Box, confidence: real)

  /**
   * The calls into MediaPipe, NumPy and OpenCV, as functions of their inputs.
   * `landmarks` is the face mesh run on the colour-converted image, answering
   * the first face's flattened (x, y, z) coordinates or `None` when no face is
   * found (or an exception is caught); `root` is the square root behind
   * `np.std` and `np.linalg.norm`; `decode` is `cv2.imdecode`; `detect` is the
   * face detector; `crop` is the slice `image[y:y+h, x:x+w]`.
   */
  datatype Backend = Backend(
    landmarks: Image -> Option<seq<real>>,
    root: Root,
    decode: seq<bv8> -> Option<Image>,
    detect: Image -> seq<Detection>,
    crop: (Image, Box) -> Image)

  /** The margin `detect_faces` adds around each box. */
  const Padding: int := 20

  function Max(a: int, b: int): int { if a >= b then a else b }
  function Min(a: int, b: int): int { if a <= b then a else b }

  /** The box lies inside an image of the given width and height. */
  predicate Fits(b: Box, imageWidth: int, imageHeight: int) {
    b.x >= 0 && b.y >= 0 && b.x + b.width <= imageWidth && b.y + b.height <= imageHeight
  }

  /**
   * The padding on face_recognizer.py lines 225-229: the padded box always lies
   * inside the image, reaches at least `Padding` beyond the original box on the
   * right and bottom unless cut by the image edge, starts at most `Padding` before
   * it, and is the box grown by `Padding` on every side when there is room.
   */
  function PadBox(b: Box, imageWidth: int, imageHeight: int): (r: Box)
    ensures Fits(r, imageWidth, imageHeight)
    ensures r.x >= b.x - Padding && r.y >= b.y - Padding
    ensures r.x + r.width >= Min(imageWidth, b.x + b.width + Padding)
    ensures r.y + r.height >= Min(imageHeight, b.y + b.height + Padding)
    ensures b.x >= Padding && b.x + b.width + Padding <= imageWidth
      ==> r.x == b.x - Padding && r.width == b.width + 2 * Padding
    ensures b.y >= Padding && b.y + b.height + Padding <= imageHeight
      ==> r.y == b.y - Padding && r.height == b.height + 2 * Padding
  {
    var x := Max(0, b.x - Padding);
    var y := Max(0, b.y - Padding);
    Box(x, y, Min(imageWidth - x, b.width + 2 * Padding), Min(imageHeight - y, b.height + 2 * Padding))
  }

  /** `safe_float(detection.score[0] if detection.score else 0.0)`. */
  function Confidence(d: Detection): real {
    if |d.score| > 0 then d.score[0] else 0.0
  }

  /** How many of the detections carry location data. */
  function CountLocated(ds: seq<Detection>): nat {
    if |ds| == 0 then 0 else (if ds[0].box.Some? then 1 else 0) + CountLocated(ds[1..])
  }

  /**
   * The detections that carry location data, in detector order: only located
   * detections are kept, and the i-th detection, when located, is kept at the
   * position given by the number of located detections before it.
   */
  function Located(ds: seq<Detection>): (r: seq<Detection>)
    ensures |r| == CountLocated(ds) <= |ds|
    ensures forall j :: 0 <= j < |r| ==> r[j].box.Some? && r[j] in ds
    ensures (forall i :: 0 <= i < |ds| ==> ds[i].box.Some?) ==> r == ds
    ensures forall i :: 0 <= i < |ds| && ds[i].box.Some? ==>
      CountLocated(ds[..i]) < |r| && r[CountLocated(ds[..i])] == ds[i]
  {
    if |ds| == 0 then []
    else
      var rest := Located(ds[1..]);
      ConsKeepsLocated(ds, rest);
      ConsKeepsAll(ds, rest);
      ConsKeepsOrder(ds, rest);
      ConsLocated(ds, rest)
  }

  /** The step of `Located`: the head, when located, goes in front of the tail's answer. */
  function ConsLocated(ds: seq<Detection>, rest: seq<Detection>): seq<Detection>
    requires |ds| > 0
  {
    (if ds[0].box.Some? then [ds[0]] else []) + rest
  }

  /** Only located detections of the input are kept, at each step. */
  lemma ConsKeepsLocated(ds: seq<Detection>, rest: seq<Detection>)
    requires |ds| > 0
    requires forall j :: 0 <= j < |rest| ==> rest[j].box.Some? && rest[j] in ds[1..]
    ensures forall j :: 0 <= j < |ConsLocated(ds, rest)| ==>
      ConsLocated(ds, rest)[j].box.Some? && ConsLocated(ds, rest)[j] in ds
  {
    var head := if ds[0].box.Some? then [ds[0]] else [];
    var r := head + rest;
    forall j | 0 <= j < |r|
      ensures r[j].box.Some? && r[j] in ds
    {
      if j >= |head| {
        assert r[j] == rest[j - |head|];
      }
    }
  }

  /** When every detection is located, each step keeps them all. */
  lemma ConsKeepsAll(ds: seq<Detection>, rest: seq<Detection>)
    requires |ds| > 0
    requires (forall i :: 0 <= i < |ds[1..]| ==> ds[1..][i].box.Some?) ==> rest == ds[1..]
    ensures (forall i :: 0 <= i < |ds| ==> ds[i].box.Some?) ==> ConsLocated(ds, rest) == ds
  {
    assert ds == [ds[0]] + ds[1..];
    if forall i :: 0 <= i < |ds| ==> ds[i].box.Some? {
      assert forall i :: 0 <= i < |ds[1..]| ==> ds[1..][i].box.Some?;
    }
  }

  /** Each located detection lands after the located detections before it, at each step. */
  lemma ConsKeepsOrder(ds: seq<Detection>, rest: seq<Detection>)
    requires |ds| > 0
    requires forall i :: 0 <= i < |ds[1..]| && ds[1..][i].box.Some? ==>
      CountLocated(ds[1..][..i]) < |rest| && rest[CountLocated(ds[1..][..i])] == ds[1..][i]
    ensures forall i :: 0 <= i < |ds| && ds[i].box.Some? ==>
      CountLocated(ds[..i]) < |ConsLocated(ds, rest)| && ConsLocated(ds, rest)[CountLocated(ds[..i])] == ds[i]
  {
    var r := ConsLocated(ds, rest);
    forall i | 0 <= i < |ds| && ds[i].box.Some?
      ensures CountLocated(ds[..i]) < |r| && r[CountLocated(ds[..i])] == ds[i]
    {
      if i == 0 {
        assert ds[..0] == [];
      } else {
        assert ds[..i][1..] == ds[1..][..i - 1];
        assert ds[1..][i - 1] == ds[i];
      }
    }
  }

  /** The face `detect_faces` reports for a located detection. */
  function PadFace(d: Detection, imageWidth: int, imageHeight: int): Face
    requires d.box.Some?
  {
    Face(PadBox(d.box.value, imageWidth, imageHeight), Confidence(d))
  }

  /**
   * The loop of `detect_faces`: detections without location data are skipped;
   * the i-th face is the i-th located detection's box, padded, with its first
   * score as confidence.
   */
  function FacesOf(ds: seq<Detection>, imageWidth: int, imageHeight: int): (r: seq<Face>)
    ensures |r| == |Located(ds)|
    ensures forall i :: 0 <= i < |r| ==> r[i] == PadFace(Located(ds)[i], imageWidth, imageHeight)
  {
    if |ds| == 0 then []
    else
      var rest := FacesOf(ds[1..], imageWidth, imageHeight);
      match ds[0].box
      case None =>
        assert Located(ds) == Located(ds[1..]);
        rest
      case Some(b) =>
        assert Located(ds) == [ds[0]] + Located(ds[1..]);
        [PadFace(ds[0], imageWidth, imageHeight)] + rest
  }

  /**
   * `detect_faces`: one padded face per located detection, each inside the image.
   * A two-dimensional array gives no faces: unpacking its shape into three names
   * raises at the first located detection, and the `except` answers `[]`.
   */
  function DetectFaces(k: Backend, img: Image): (r: seq<Face>)
    ensures img.twoDimensional ==> r == []
    ensures !img.twoDimensional ==> |r| == |Located(k.detect(img))|
    ensures !img.twoDimensional ==> forall i :: 0 <= i < |r| ==> r[i] == PadFace(Located(k.detect(img))[i], img.width, img.height)
    ensures forall f :: f in r ==> Fits(f.box, img.width, img.height)
  {
    if img.twoDimensional then [] else FacesOf(k.detect(img), img.width, img.height)
  }

  /**
   * `extract_embedding`: present exactly when the mesh finds a face with the full
   * 1404 coordinates; the embedding then has that length and mean zero.
   */
  function ExtractEmbedding(k: Backend, img: Image): (r: Option<Vector>)
    ensures r.Some? <==> k.landmarks(img).Some? && |k.landmarks(img).value| == EmbeddingSize
    ensures r.Some? ==> |r.value| == EmbeddingSize && Mean(r.value) == 0.0
  {
    match k.landmarks(img)
    case None => None
    case Some(raw) => if |raw| == EmbeddingSize then Some(Standardize(k.root, raw)) else None
  }

  /** `extract_embedding_from_bytes`: nothing when the bytes do not decode to an image. */
  function ExtractFromBytes(k: Backend, data: seq<bv8>): (r: Option<Vector>)
    ensures k.decode(data).None? ==> r.None?
    ensures k.decode(data).Some? ==> r == ExtractEmbedding(k, k.decode(data).value)
    ensures r.Some? ==> |r.value| == EmbeddingSize
  {
    match k.decode(data)
    case None => None
    case Some(img) => ExtractEmbedding(k, img)
  }

  /** With a true square root and a positive deviation, an extracted embedding has variance one. */
  lemma ExtractedStandardized(k: Backend, img: Image)
    requires k.landmarks(img).Some? && |k.landmarks(img).value| == EmbeddingSize
    requires ExactAt(k.root, Variance(k.landmarks(img).value))
    requires Std(k.root, k.landmarks(img).value) > 0.0
    ensures Variance(ExtractEmbedding(k, img).value) == 1.0
  {
    StandardizedUnitVariance(k.root, k.landmarks(img).value);
  }
}

=== FILE: gallery.dfy ===
/**
 * The gallery of enrolled embeddings. The recognizer keeps four index-aligned
 * lists (`known_embeddings`, `known_names`, `known_ids`, `known_photo_ids`);
 * here they are one sequence of entries, so the four lists are projections of
 * it and stay aligned by construction.
 */
module Gallery {
  import opened Wrappers
  import opened Numerics
  import opened Text

  /** `embedding_size`: 468 landmarks times 3 coordinates. */
  const EmbeddingSize: nat := 468 * 3

  /** One enrolled embedding with its person id, display name and source photo id. */
  datatype Entry = Entry(vector: Vector, personId: int, name: string, photoId: Option<int>)

  type Gallery = seq<Entry>

  /**
   * The `person_data` dictionary handed to the training calls; `None` stands for
   * a missing key (`.get` then yields `''` for the names and `None` for the id).
   */
  datatype PersonData = PersonData(id: Option<int>, lastName: Option<string>, firstName: Option<string>)

  /** `known_ids`. */
  function PersonIds(g: Gallery): (ids: seq<int>)
    ensures |ids| == |g| && forall i :: 0 <= i < |g| ==> ids[i] == g[i].personId
  {
    seq(|g|, i requires 0 <= i < |g| => g[i].personId)
  }

  /** `known_photo_ids`. */
  function PhotoIds(g: Gallery): (ids: seq<Option<int>>)
    ensures |ids| == |g| && forall i :: 0 <= i < |g| ==> ids[i] == g[i].photoId
  {
    seq(|g|, i requires 0 <= i < |g| => g[i].photoId)
  }

  /** Every enrolled vector has the embedding length. */
  predicate WellSized(g: Gallery) {
    forall i :: 0 <= i < |g| ==> |g[i].vector| == EmbeddingSize
  }

  predicate HasPhoto(g: Gallery, photoId: int) {
    Some(photoId) in PhotoIds(g)
  }

  /** `i` is the first position holding `photoId`, the one `list.index` finds. */
  predicate FirstWithPhoto(g: Gallery, photoId: int, i: int) {
    && 0 <= i < |g|
    && g[i].photoId == Some(photoId)
    && forall j :: 0 <= j < i ==> g[j].photoId != Some(photoId)
  }

  /** `known_photo_ids.index(photo_id)`, or `None` where `photo_id in known_photo_ids` fails. */
  function IndexOfPhoto(g: Gallery, photoId: int): (r: Option<nat>)
    ensures r.None? <==> !HasPhoto(g, photoId)
    ensures r.Some? ==> FirstWithPhoto(g, photoId, r.value)
  {
    if |g| == 0 then None
    else if g[0].photoId == Some(photoId) then Some(0)
    else
      var rest := IndexOfPhoto(g[1..], photoId);
      assert PhotoIds(g) == [g[0].photoId] + PhotoIds(g[1..]);
      match rest
      case None => None
      case Some(i) =>
        assert FirstWithPhoto(g, photoId, i + 1) by {
          assert g[i + 1] == g[1..][i];
          forall j | 0 <= j < i + 1 ensures g[j].photoId != Some(photoId) {
            if j > 0 { assert g[j] == g[1..][j - 1]; }
          }
        }
        Some(i + 1)
  }

  /**
   * `_add_embedding_to_memory`: appends one aligned entry. The display name joins
   * family and given name; a missing person id is replaced by `len(known_ids) + 1`.
   */
  function Add(g: Gallery, v: Vector, person: PersonData, photoId: Option<int>): (r: Gallery)
    ensures |r| == |g| + 1 && r[..|g|] == g
    ensures r[|g|].vector == v && r[|g|].photoId == photoId
    ensures r[|g|].name == DisplayName(person.lastName.GetOr(""), person.firstName.GetOr(""))
    ensures person.id.Some? ==> r[|g|].personId == person.id.value
    ensures person.id.None? ==> r[|g|].personId == |PersonIds(g)| + 1
  {
    var id := person.id.GetOr(|g| + 1);
    var name := DisplayName(person.lastName.GetOr(""), person.firstName.GetOr(""));
    g + [Entry(v, id, name, photoId)]
  }

  /**
   * The gallery part of `remove_embedding_by_photo_id`: when `photoId` is present
   * the first entry carrying it is cut out and everything else keeps its order;
   * otherwise the gallery is unchanged and the answer is false.
   */
  function RemovePhoto(g: Gallery, photoId: int): (r: (Gallery, bool))
    ensures r.1 <==> HasPhoto(g, photoId)
    ensures !r.1 ==> r.0 == g
    ensures r.1 ==> exists i :: FirstWithPhoto(g, photoId, i) && r.0 == g[..i] + g[i + 1..]
  {
    match IndexOfPhoto(g, photoId)
    case None => (g, false)
    case Some(i) => (g[..i] + g[i + 1..], true)
  }

  /** `len(set(known_ids))`: the number of distinct persons enrolled. */
  function UniquePeople(g: Gallery): nat {
    |set i | 0 <= i < |g| :: g[i].personId|
  }

  /** The distinct people counted entry by entry are the members of `set(known_ids)`. */
  lemma UniquePeopleIsIdSet(g: Gallery)
    ensures UniquePeople(g) == |set id | id in PersonIds(g)|
  {
    var ids := PersonIds(g);
    assert (set i | 0 <= i < |g| :: g[i].personId) == (set id | id in ids) by {
      forall id | id in ids ensures id in (set i | 0 <= i < |g| :: g[i].personId) {
        var i :| 0 <= i < |ids| && ids[i] == id;
        assert g[i].personId == id;
      }
    }
  }

  /** Removing an entry just appended for a photo not yet enrolled restores the gallery. */
  lemma RemoveAfterAdd(g: Gallery, v: Vector, person: PersonData, photoId: int)
    requires !HasPhoto(g, photoId)
    ensures RemovePhoto(Add(g, v, person, Some(photoId)), photoId) == (g, true)
  {
    var a := Add(g, v, person, Some(photoId));
    IndexAfterAdd(g, a, photoId);
    assert a[..|g|] + a[|g| + 1..] == g;
  }

  /** In `a`, `g` followed by one entry for a photo `g` lacks, the photo is found at the end. */
  lemma IndexAfterAdd(g: Gallery, a: Gallery, photoId: int)
    requires !HasPhoto(g, photoId)
    requires |a| == |g| + 1 && a[..|g|] == g && a[|g|].photoId == Some(photoId)
    ensures IndexOfPhoto(a, photoId) == Some(|g|)
  {
    assert PhotoIds(a)[|g|] == Some(photoId);
  }

  /** Removal takes out exactly one entry, the first one for the photo, as a multiset. */
  lemma RemoveTakesOne(g: Gallery, photoId: int)
    requires HasPhoto(g, photoId)
    ensures exists i :: (FirstWithPhoto(g, photoId, i)
      && multiset(RemovePhoto(g, photoId).0) + multiset{g[i]} == multiset(g))
  {
    var r := RemovePhoto(g, photoId);
    assert r.1;
    var i :| FirstWithPhoto(g, photoId, i) && r.0 == g[..i] + g[i + 1..];
    assert g == g[..i] + [g[i]] + g[i + 1..];
    assert multiset(g) == multiset(g[..i]) + multiset{g[i]} + multiset(g[i + 1..]);
    assert multiset(r.0) == multiset(g[..i]) + multiset(g[i + 1..]);
    assert FirstWithPhoto(g, photoId, i) && multiset(r.0) + multiset{g[i]} == multiset(g);
  }

  /** When the photo occurs once, no entry for it is left after removal. */
  lemma RemoveUniquePhoto(g: Gallery, photoId: int)
    requires forall i, j :: 0 <= i < j < |g| && g[i].photoId == Some(photoId) ==> g[j].photoId != Some(photoId)
    ensures !HasPhoto(RemovePhoto(g, photoId).0, photoId)
  {
    var r := RemovePhoto(g, photoId);
    if HasPhoto(g, photoId) {
      var i :| FirstWithPhoto(g, photoId, i) && r.0 == g[..i] + g[i + 1..];
      forall k | 0 <= k < |r.0|
        ensures r.0[k].photoId != Some(photoId)
      {
        if k >= i {
          assert r.0[k] == g[k + 1];
        }
      }
    }
  }

  /** Removal keeps the vectors well sized. */
  lemma RemoveWellSized(g: Gallery, photoId: int)
    ensures WellSized(g) ==> WellSized(RemovePhoto(g, photoId).0)
  {
    var r := RemovePhoto(g, photoId);
    if r.1 && WellSized(g) {
      var i :| FirstWithPhoto(g, photoId, i) && r.0 == g[..i] + g[i + 1..];
      forall k | 0 <= k < |r.0|
        ensures |r.0[k].vector| == EmbeddingSize
      {
        if k >= i {
          assert r.0[k] == g[k + 1];
        }
      }
    }
  }

  /** Adding a vector of the embedding length keeps the vectors well sized. */
  lemma AddWellSized(g: Gallery, v: Vector, person: PersonData, photoId: Option<int>)
    ensures WellSized(g) && |v| == EmbeddingSize ==> WellSized(Add(g, v, person, photoId))
  {
    var r := Add(g, v, person, photoId);
    if WellSized(g) && |v| == EmbeddingSize {
      forall k | 0 <= k < |r|
        ensures |r[k].vector| == EmbeddingSize
      {
        if k < |g| {
          assert r[k] == g[k];
        }
      }
    }
  }

  /** There are never more distinct persons than entries, and none only when empty. */
  lemma {:induction false} UniquePeopleBounds(g: Gallery)
    ensures UniquePeople(g) <= |g|
    ensures UniquePeople(g) == 0 <==> |g| == 0
  {
    var ids := set i | 0 <= i < |g| :: g[i].personId;
    if |g| == 0 {
      assert ids == {};
    } else {
      var last := |g| - 1;
      var front := g[..last];
      var fronts := set i | 0 <= i < |front| :: front[i].personId;
      UniquePeopleBounds(front);
      assert ids == fronts + {g[last].personId} by {
        forall x | x in ids
          ensures x in fronts + {g[last].personId}
        {
          var i :| 0 <= i < |g| && g[i].personId == x;
          if i < last {
            assert front[i].personId == x;
          }
        }
        forall x | x in fronts
          ensures x in ids
        {
          var i :| 0 <= i < |front| && front[i].personId == x;
          assert g[i].personId == x;
        }
      }
      assert g[last].personId in ids;
      assert |ids| <= |fronts| + 1;
    }
  }

  /**
   * A person id filled in as `len(known_ids) + 1` can equal an id already
   * enrolled, so two different people end up sharing one id.
   */
  lemma SyntheticIdCanCollide(g: Gallery, v: Vector, photoId: Option<int>)
    requires exists i :: 0 <= i < |g| && g[i].personId == |g| + 1
    ensures var r := Add(g, v, PersonData(None, None, None), photoId);
      exists i :: 0 <= i < |g| && r[i].personId == r[|g|].personId
  {
    var r := Add(g, v, PersonData(None, None, None), photoId);
    var i :| 0 <= i < |g| && g[i].personId == |g| + 1;
    assert r[i] == g[i];
  }
}

=== FILE: matcher.dfy ===
/**
 * `recognize_face`: a linear scan over the gallery that keeps the best score
 * seen so far, starting from 0.0, and replaces it only by a score strictly above
 * both the running best and the recognition threshold.
 */
module Matcher {
  import opened Wrappers
  import opened Numerics
  import opened Gallery

  /** `(person_id, confidence, photo_id)`. */
  datatype Recognition = Recognition(personId: Option<int>, confidence: real, photoId: Option<int>)

  /** `(None, 0.0, None)`. */
  const NoMatch := Recognition(None, 0.0, None)

  /** The running best of the scan: its score and the index it came from. */
  datatype Best = Best(score: real, index: Option<nat>)

  const Start := Best(0.0, None)

  /** A score can win only if it beats the threshold and the initial best 0.0. */
  predicate Accepts(score: real, threshold: real) {
    score > threshold && score > 0.0
  }

  predicate NoneAccepted(scores: seq<real>, threshold: real) {
    forall j :: 0 <= j < |scores| ==> !Accepts(scores[j], threshold)
  }

  /**
   * The reference answer: `i` holds an accepted score no other accepted score
   * exceeds, and every earlier accepted score is strictly smaller.
   */
  predicate IsFirstBest(scores: seq<real>, threshold: real, i: int) {
    && 0 <= i < |scores|
    && Accepts(scores[i], threshold)
    && (forall j :: 0 <= j < |scores| && Accepts(scores[j], threshold) ==> scores[j] <= scores[i])
    && (forall j :: 0 <= j < i && Accepts(scores[j], threshold) ==> scores[j] < scores[i])
  }

  /** `b` is what the scan should hold after reading exactly `scores`. */
  predicate Describes(scores: seq<real>, threshold: real, b: Best) {
    match b.index
    case None => b.score == 0.0 && NoneAccepted(scores, threshold)
    case Some(i) => IsFirstBest(scores, threshold, i) && b.score == scores[i]
  }

  /** One loop iteration: the comparison on face_recognizer.py line 265. */
  function Step(b: Best, score: real, threshold: real, k: nat): Best {
    if score > b.score && score > threshold then Best(score, Some(k)) else b
  }

  function ScanFrom(scores: seq<real>, threshold: real, k: nat, b: Best): Best
    requires k <= |scores|
    decreases |scores| - k
  {
    if k == |scores| then b else ScanFrom(scores, threshold, k + 1, Step(b, scores[k], threshold, k))
  }

  /** The whole loop, from `best_similarity = 0.0` and no match. */
  function Scan(scores: seq<real>, threshold: real): Best {
    ScanFrom(scores, threshold, 0, Start)
  }

  /** Reading one more score keeps the running best faithful to the reference. */
  lemma StepDescribes(scores: seq<real>, threshold: real, k: nat, b: Best)
    requires k < |scores|
    requires Describes(scores[..k], threshold, b)
    ensures Describes(scores[..k + 1], threshold, Step(b, scores[k], threshold, k))
  {
    var p := scores[..k + 1];
    assert p[..k] == scores[..k];
    assert forall j :: 0 <= j < k ==> p[j] == scores[..k][j];
  }

  lemma {:induction false} ScanFromDescribes(scores: seq<real>, threshold: real, k: nat, b: Best)
    requires k <= |scores|
    requires Describes(scores[..k], threshold, b)
    ensures Describes(scores, threshold, ScanFrom(scores, threshold, k, b))
    decreases |scores| - k
  {
    if k == |scores| {
      assert scores[..k] == scores;
    } else {
      StepDescribes(scores, threshold, k, b);
      ScanFromDescribes(scores, threshold, k + 1, Step(b, scores[k], threshold, k));
    }
  }

  /** At most one index is the first best. */
  lemma FirstBestUnique(scores: seq<real>, threshold: real, i: int, j: int)
    requires IsFirstBest(scores, threshold, i) && IsFirstBest(scores, threshold, j)
    ensures i == j
  {
  }

  /**
   * The scan finds exactly the reference answer: no index when no score is
   * accepted (and then the score stays 0.0), otherwise the first index of the
   * maximal accepted score, together with that score.
   */
  lemma ScanCorrect(scores: seq<real>, threshold: real)
    ensures Scan(scores, threshold).index.None? <==> NoneAccepted(scores, threshold)
    ensures Scan(scores, threshold).index.None? ==> Scan(scores, threshold) == Start
    ensures forall i :: Scan(scores, threshold).index == Some(i) <==> IsFirstBest(scores, threshold, i)
    ensures forall i :: Scan(scores, threshold).index == Some(i) ==>
      IsFirstBest(scores, threshold, i) && Scan(scores, threshold).score == scores[i]
  {
    assert scores[..0] == [];
    ScanFromDescribes(scores, threshold, 0, Start);
    var b := Scan(scores, threshold);
    forall i | IsFirstBest(scores, threshold, i)
      ensures b.index == Some(i)
    {
      if b.index.Some? {
        FirstBestUnique(scores, threshold, b.index.value, i);
      }
    }
  }

  /** `_calculate_similarity(embedding, known_embedding)` for every entry, in order. */
  function Scores(query: Vector, g: Gallery, sim: (Vector, Vector) -> real): (s: seq<real>)
    ensures |s| == |g|
    ensures forall i :: 0 <= i < |g| ==> s[i] == sim(query, g[i].vector)
  {
    seq(|g|, i requires 0 <= i < |g| => sim(query, g[i].vector))
  }

  /**
   * `recognize_face`: `NoMatch` exactly when there is no query or no entry's score
   * is accepted; otherwise the person id, score and photo id of the first entry
   * with the maximal accepted score, which is above the threshold.
   */
  function Recognize(query: Option<Vector>, g: Gallery, threshold: real, sim: (Vector, Vector) -> real): (r: Recognition)
    ensures r.personId.None? <==> (query.None? || NoneAccepted(Scores(query.value, g, sim), threshold))
    ensures r.personId.None? ==> r == NoMatch
    ensures r.personId.Some? ==> r.confidence > threshold
    ensures query.Some? ==> forall i :: IsFirstBest(Scores(query.value, g, sim), threshold, i) ==>
      r == Recognition(Some(g[i].personId), Scores(query.value, g, sim)[i], g[i].photoId)
  {
    if query.None? || |g| == 0 then NoMatch
    else
      var scores := Scores(query.value, g, sim);
      var b := Scan(scores, threshold);
      ScanCorrect(scores, threshold);
      match b.index
      case None => Recognition(None, b.score, None)
      case Some(i) => Recognition(Some(g[i].personId), b.score, g[i].photoId)
  }

  /** A later entry with a score equal to the best never displaces the earlier one. */
  lemma TieKeepsEarlier(query: Vector, g: Gallery, threshold: real, sim: (Vector, Vector) -> real, i: nat, j: nat)
    requires i < j < |g|
    requires Accepts(sim(query, g[i].vector), threshold)
    requires sim(query, g[i].vector) == sim(query, g[j].vector)
    ensures forall k :: IsFirstBest(Scores(query, g, sim), threshold, k) ==> k != j
  {
  }

  /** A single entry is recognized exactly when its score is accepted. */
  lemma SingleEntry(query: Vector, e: Entry, threshold: real, sim: (Vector, Vector) -> real)
    ensures Recognize(Some(query), [e], threshold, sim)
      == if Accepts(sim(query, e.vector), threshold)
         then Recognition(Some(e.personId), sim(query, e.vector), e.photoId)
         else NoMatch
  {
    var s := Scores(query, [e], sim);
    if Accepts(sim(query, e.vector), threshold) {
      assert IsFirstBest(s, threshold, 0);
    }
  }

  /** After removing the only entry for a photo, that photo is never reported. */
  lemma RemovedPhotoNotRecognized(query: Option<Vector>, g: Gallery, photoId: int, threshold: real, sim: (Vector, Vector) -> real)
    requires forall i, j :: 0 <= i < j < |g| && g[i].photoId == Some(photoId) ==> g[j].photoId != Some(photoId)
    ensures Recognize(query, RemovePhoto(g, photoId).0, threshold, sim).photoId != Some(photoId)
  {
    var g' := RemovePhoto(g, photoId).0;
    RemoveUniquePhoto(g, photoId);
    var r := Recognize(query, g', threshold, sim);
    if r.personId.Some? {
      var scores := Scores(query.value, g', sim);
      ScanCorrect(scores, threshold);
      var i := Scan(scores, threshold).index.value;
      assert PhotoIds(g')[i] == g'[i].photoId;
    }
  }
}

=== FILE: numerics.dfy ===
/**
 * The real-arithmetic part of the recognizer: standardisation of a landmark
 * vector (`_normalize_embedding`) and the cosine similarity mapped to [0, 1]
 * (`_calculate_similarity`). NumPy's float32 arithmetic is modelled by exact
 * reals; its square root is an oracle `Root` that is only known to be
 * non-negative, and lemmas that need a true square root say so.
 */
module Numerics {

  type Vector = seq<real>

  /** The `1e-10` added to each norm before dividing by it. */
  const Eps: real := 0.0000000001

  function ZeroRoot(x: real): real { 0.0 }

  /** A square-root oracle (`np.sqrt` inside `np.std` and `np.linalg.norm`): never negative. */
  type Root = f: real -> real | forall x :: f(x) >= 0.0 witness ZeroRoot

  /** The oracle is an exact square root at `x`. */
  predicate ExactAt(root: Root, x: real) {
    root(x) * root(x) == x
  }

  function Sum(v: Vector): real {
    if |v| == 0 then 0.0 else v[0] + Sum(v[1..])
  }

  function Mean(v: Vector): real
    requires |v| > 0
  {
    Sum(v) / (|v| as real)
  }

  /** Element-wise `v - c`. */
  function Shift(v: Vector, c: real): (r: Vector)
    ensures |r| == |v|
  {
    seq(|v|, i requires 0 <= i < |v| => v[i] - c)
  }

  /** Element-wise `v / d`. */
  function Divide(v: Vector, d: real): (r: Vector)
    requires d != 0.0
    ensures |r| == |v|
  {
    seq(|v|, i requires 0 <= i < |v| => v[i] / d)
  }

  /** Element-wise square. */
  function Squares(v: Vector): (r: Vector)
    ensures |r| == |v|
  {
    seq(|v|, i requires 0 <= i < |v| => v[i] * v[i])
  }

  /** Population variance, as `np.std` squares it (no degrees-of-freedom correction). */
  function Variance(v: Vector): real
    requires |v| > 0
  {
    Mean(Squares(Shift(v, Mean(v))))
  }

  /** `np.std(v)`: the oracle's root of the population variance. */
  function Std(root: Root, v: Vector): real
    requires |v| > 0
  {
    root(Variance(v))
  }

  /**
   * `_normalize_embedding`: subtract the vector's own mean, then divide by its
   * standard deviation when that is positive. The result always has mean zero.
   */
  function Standardize(root: Root, v: Vector): (r: Vector)
    requires |v| > 0
    ensures |r| == |v|
    ensures Mean(r) == 0.0
  {
    var centered := Shift(v, Mean(v));
    var std := Std(root, v);
    var r := if std > 0.0 then Divide(centered, std) else centered;
    StandardizedSumZero(v, std, r);
    r
  }

  lemma StandardizedSumZero(v: Vector, std: real, r: Vector)
    requires |v| > 0
    requires r == if std > 0.0 then Divide(Shift(v, Mean(v)), std) else Shift(v, Mean(v))
    ensures Mean(r) == 0.0
  {
    CenteredSumZero(v);
    if std > 0.0 {
      SumDivide(Shift(v, Mean(v)), std);
    }
    assert Sum(r) == 0.0;
  }

  lemma {:induction false} SumShift(v: Vector, c: real)
    ensures Sum(Shift(v, c)) == Sum(v) - (|v| as real) * c
  {
    if |v| > 0 {
      assert Shift(v, c)[1..] == Shift(v[1..], c);
      SumShift(v[1..], c);
    }
  }

  lemma {:induction false} SumDivide(v: Vector, d: real)
    requires d != 0.0
    ensures Sum(Divide(v, d)) == Sum(v) / d
  {
    if |v| > 0 {
      assert Divide(v, d)[1..] == Divide(v[1..], d);
      SumDivide(v[1..], d);
    }
  }

  /** Subtracting the mean leaves a vector that sums to zero. */
  lemma CenteredSumZero(v: Vector)
    requires |v| > 0
    ensures Sum(Shift(v, Mean(v))) == 0.0
  {
    SumShift(v, Mean(v));
  }

  /** Dividing by `s` and squaring, then multiplying back by `s * s`, gives the square. */
  lemma QuotientSquared(x: real, s: real, a: real)
    requires s > 0.0
    requires a == x / s
    ensures a * a * (s * s) == x * x
  {
    assert a * s == x;
    assert a * a * (s * s) == (a * s) * (a * s);
  }

  lemma {:induction false} SumScaled(w: Vector, z: Vector, k: real)
    requires |w| == |z|
    requires forall i :: 0 <= i < |w| ==> w[i] * k == z[i]
    ensures Sum(w) * k == Sum(z)
  {
    if |w| > 0 {
      SumScaled(w[1..], z[1..], k);
      assert (w[0] + Sum(w[1..])) * k == w[0] * k + Sum(w[1..]) * k;
    }
  }

  lemma ShiftZero(v: Vector)
    ensures Shift(v, 0.0) == v
  {
  }

  /**
   * When the oracle is an exact square root at the variance and the deviation is
   * positive, the standardised vector has population variance one.
   */
  lemma StandardizedUnitVariance(root: Root, v: Vector)
    requires |v| > 0
    requires ExactAt(root, Variance(v))
    requires Std(root, v) > 0.0
    ensures Variance(Standardize(root, v)) == 1.0
  {
    var u := Shift(v, Mean(v));
    var s := Std(root, v);
    var r := Standardize(root, v);
    var n := |v| as real;
    assert r == Divide(u, s);
    assert s * s == Sum(Squares(u)) / n by {
      assert Variance(v) == Sum(Squares(u)) / n;
    }
    calc {
      Variance(r);
    == { ShiftZero(r); }
      Sum(Squares(r)) / n;
    == { UnitSquares(u, s, r, n); }
      1.0;
    }
  }

  lemma UnitSquares(u: Vector, s: real, r: Vector, n: real)
    requires s > 0.0 && n > 0.0
    requires r == Divide(u, s)
    requires s * s == Sum(Squares(u)) / n
    ensures Sum(Squares(r)) / n == 1.0
  {
    ScaledSquares(u, s, r);
    UnitRatio(Sum(Squares(r)), Sum(Squares(u)), n, s);
  }

  lemma ScaledSquares(u: Vector, s: real, r: Vector)
    requires s > 0.0
    requires r == Divide(u, s)
    ensures Sum(Squares(r)) * (s * s) == Sum(Squares(u))
  {
    var k := s * s;
    forall i | 0 <= i < |r|
      ensures Squares(r)[i] * k == Squares(u)[i]
    {
      SquareEntry(u, s, r, i);
    }
    SumScaled(Squares(r), Squares(u), k);
  }

  lemma SquareEntry(u: Vector, s: real, r: Vector, i: nat)
    requires s > 0.0
    requires r == Divide(u, s)
    requires i < |r|
    ensures Squares(r)[i] * (s * s) == Squares(u)[i]
  {
    QuotientSquared(u[i], s, r[i]);
  }

  /** If `R * s * s == Q` and `Q / n == s * s > 0` then `R / n == 1`. */
  lemma UnitRatio(R: real, Q: real, n: real, s: real)
    requires n > 0.0 && s > 0.0
    requires R * (s * s) == Q && Q / n == s * s
    ensures R / n == 1.0
  {
    var a := s * s;
    calc {
      a;
    ==
      s * s;
    >
      0.0;
    }
    assert Q == a * n;
    assert R * a == n * a;
    assert R == n;
  }

  function Dot(a: Vector, b: Vector): real
    requires |a| == |b|
  {
    if |a| == 0 then 0.0 else a[0] * b[0] + Dot(a[1..], b[1..])
  }

  /** `np.linalg.norm(v)`. */
  function Norm(root: Root, v: Vector): real {
    root(Dot(v, v))
  }

  /**
   * `_calculate_similarity`: the cosine of the two vectors, each divided by its
   * norm plus `Eps`, mapped from [-1, 1] to [0, 1]. Vectors of different lengths
   * make `np.dot` raise, which the source catches and answers with 0.0.
   */
  function Similarity(root: Root, a: Vector, b: Vector): (s: real)
    ensures |a| != |b| ==> s == 0.0
  {
    if |a| != |b| then 0.0
    else
      var cosine := Dot(a, b) / ((Norm(root, a) + Eps) * (Norm(root, b) + Eps));
      (cosine + 1.0) / 2.0
  }

  lemma {:induction false} DotSymmetric(a: Vector, b: Vector)
    requires |a| == |b|
    ensures Dot(a, b) == Dot(b, a)
  {
    if |a| > 0 {
      DotSymmetric(a[1..], b[1..]);
    }
  }

  lemma {:induction false} DotSelfNonNegative(v: Vector)
    ensures Dot(v, v) >= 0.0
  {
    if |v| > 0 {
      DotSelfNonNegative(v[1..]);
    }
  }

  /** The score does not depend on which vector is the query. */
  lemma SimilaritySymmetric(root: Root, a: Vector, b: Vector)
    ensures Similarity(root, a, b) == Similarity(root, b, a)
  {
    if |a| == |b| {
      DotSymmetric(a, b);
      var d1 := (Norm(root, a) + Eps) * (Norm(root, b) + Eps);
      var d2 := (Norm(root, b) + Eps) * (Norm(root, a) + Eps);
      assert d1 == d2;
    }
  }

  /**
   * Because of `Eps`, a vector compared with itself scores at least 1/2 but
   * strictly below 1, so at the largest threshold the clamp allows (1.0) even
   * an exact self-match is rejected.
   */
  lemma SelfSimilarityBelowOne(root: Root, v: Vector)
    requires ExactAt(root, Dot(v, v))
    ensures 0.5 <= Similarity(root, v, v) < 1.0
  {
    var n := Norm(root, v);
    var d := (n + Eps) * (n + Eps);
    SquareBelowPadded(n);
    var q := Dot(v, v) / d;
    RatioBelowOne(Dot(v, v), d);
    assert Similarity(root, v, v) == (q + 1.0) / 2.0;
  }

  /** `n * n < (n + Eps) * (n + Eps)` for every non-negative `n`. */
  lemma SquareBelowPadded(n: real)
    requires n >= 0.0
    ensures n * n < (n + Eps) * (n + Eps)
  {
    var m := n + Eps;
    assert m * m == n * n + (2.0 * n + Eps) * Eps;
    assert (2.0 * n + Eps) * Eps > 0.0;
  }

  lemma RatioBelowOne(a: real, d: real)
    requires 0.0 <= a < d
    ensures 0.0 <= a / d < 1.0
  {
  }
}

=== FILE: pipeline.dfy ===
/**
 * `recognize_face_in_image`: detect the faces of an image, then crop, extract
 * and recognize. As written in face_recognizer.py the bounds check and
 * everything after it sit after the loop over the faces rather than inside it,
 * so only the last detected face is examined and an image without faces reads
 * the loop variables before any assignment. `RecognizeInImageAsWritten` models
 * that text; `RecognizeInImage` examines every face, as the docstring promises.
 */
module Pipeline {
  import opened Wrappers
  import opened Matcher
  import opened Extractor
  import opened Recognizer

  /**
   * A result dictionary: the padded box, the detection confidence and the
   * recognizer's `(person_id, confidence, photo_id)`. Landmarks are not kept.
   */
  datatype FaceResult = FaceResult(box: Box, detectionConfidence: real, recognition: Recognition)

  /** The `UnboundLocalError` of reading `x` after a loop that never ran; nothing catches it. */
  datatype Error = UnboundLocal

  /**
   * One face: the box and confidence are copied, and the recognition is the
   * recognizer's answer for the embedding of the cropped face, so a match
   * needs a face mesh on the crop and a score above the threshold.
   */
  function Examine(k: Backend, e: Engine, img: Image, f: Face): (r: FaceResult)
    requires Valid(e)
    ensures r.box == f.box && r.detectionConfidence == f.confidence
    ensures r.recognition == RecognizeQuery(k, e, ExtractEmbedding(k, k.crop(img, f.box)))
    ensures r.recognition.personId.Some? ==>
      ExtractEmbedding(k, k.crop(img, f.box)).Some? && r.recognition.confidence > e.threshold
  {
    FaceResult(f.box, f.confidence, RecognizeQuery(k, e, ExtractEmbedding(k, k.crop(img, f.box))))
  }

  /**
   * The method as written: fails when no face is detected, and otherwise
   * answers at most one result, the one for the last detected face.
   */
  function RecognizeInImageAsWritten(k: Backend, e: Engine, img: Image): (r: Result<seq<FaceResult>, Error>)
    requires Valid(e)
    ensures r.Failure? <==> |DetectFaces(k, img)| == 0
    ensures r.Success? ==> r.value == [Examine(k, e, img, DetectFaces(k, img)[|DetectFaces(k, img)| - 1])]
  {
    var faces := DetectFaces(k, img);
    if |faces| == 0 then Failure(UnboundLocal)
    else
      var f := faces[|faces| - 1];
      assert f in faces;
      if Fits(f.box, img.width, img.height) then Success([Examine(k, e, img, f)]) else Success([])
  }

  /**
   * The loop with the bounds check inside it: one result per face that lies in
   * the image, in detection order.
   */
  function RecognizeFaces(k: Backend, e: Engine, img: Image, faces: seq<Face>): (r: seq<FaceResult>)
    requires Valid(e)
    ensures |r| <= |faces|
    ensures (forall f :: f in faces ==> Fits(f.box, img.width, img.height)) ==>
      |r| == |faces| && forall i :: 0 <= i < |faces| ==> r[i] == Examine(k, e, img, faces[i])
    decreases |faces|
  {
    if |faces| == 0 then []
    else
      var f := faces[0];
      var head := if Fits(f.box, img.width, img.height) then [Examine(k, e, img, f)] else [];
      var rest := RecognizeFaces(k, e, img, faces[1..]);
      assert forall f :: f in faces[1..] ==> f in faces;
      head + rest
  }

  /**
   * `recognize_face_in_image` with the examination inside the loop: one result
   * per detected face, the i-th for the i-th face, and an empty list when no face
   * is found.
   */
  function RecognizeInImage(k: Backend, e: Engine, img: Image): (r: seq<FaceResult>)
    requires Valid(e)
    ensures |r| == |DetectFaces(k, img)|
    ensures forall i :: 0 <= i < |r| ==> r[i] == Examine(k, e, img, DetectFaces(k, img)[i])
  {
    RecognizeFaces(k, e, img, DetectFaces(k, img))
  }

  /**
   * The discrepancy: with at least one face the method as written answers only
   * the corrected answer's last element, so every face but the last is lost;
   * with none it fails where the corrected method answers an empty list.
   */
  lemma AsWrittenKeepsLastFace(k: Backend, e: Engine, img: Image)
    requires Valid(e)
    ensures var faces := DetectFaces(k, img);
      var w := RecognizeInImageAsWritten(k, e, img);
      var c := RecognizeInImage(k, e, img);
      && (|faces| == 0 ==> w.Failure? && c == [])
      && (|faces| > 0 ==> w == Success([c[|c| - 1]]))
      && (|faces| >= 2 ==> w.Success? && |w.value| < |c|)
  {
  }
}

=== FILE: recognizer.dfy ===
/**
 * The recognizer's state and its operations on it (`KaleidoRecognizer`): the
 * gallery, the extraction cache, the threshold and the reported settings. Each
 * operation is a function from the old state to the new one and its answer.
 */
module Recognizer {
  import opened Wrappers
  import opened Numerics
  import opened Gallery
  import opened Matcher
  import opened Extractor

  const DefaultThreshold: real := 0.6
  const MinThreshold: real := 0.1
  const MaxThreshold: real := 1.0

  datatype Engine = Engine(
    gallery: Gallery,
    cache: map<int, Vector>,
    threshold: real,
    minDetectionConfidence: real,
    showLandmarks: bool)

  /**
   * What every operation preserves: enrolled and cached vectors have the
   * embedding length and the threshold lies in [0.1, 1.0].
   */
  predicate Valid(e: Engine) {
    && WellSized(e.gallery)
    && (forall p :: p in e.cache ==> |e.cache[p]| == EmbeddingSize)
    && MinThreshold <= e.threshold <= MaxThreshold
  }

  /** `__init__`: an empty, valid recognizer with threshold 0.6 that still needs training. */
  function Init(minDetectionConfidence: real): (e: Engine)
    ensures Valid(e)
    ensures ModelInfo(e).status == NeedsTraining && ModelInfo(e).cacheSize == 0
    ensures e.threshold == DefaultThreshold
  {
    Engine([], map[], DefaultThreshold, minDetectionConfidence, true)
  }

  /** A new engine state and the boolean the source returns. */
  datatype Outcome = Outcome(engine: Engine, ok: bool)

  /** Everything but the gallery and the cache is the same. */
  predicate SameSettings(a: Engine, b: Engine) {
    a.threshold == b.threshold && a.minDetectionConfidence == b.minDetectionConfidence && a.showLandmarks == b.showLandmarks
  }

  /** `_add_embedding_to_memory`, which always answers True. */
  function AddToMemory(e: Engine, v: Vector, person: PersonData, photoId: Option<int>): (r: Engine)
    ensures r.gallery == Add(e.gallery, v, person, photoId)
    ensures r.cache == e.cache && SameSettings(r, e)
    ensures Valid(e) && |v| == EmbeddingSize ==> Valid(r)
  {
    AddWellSized(e.gallery, v, person, photoId);
    e.(gallery := Add(e.gallery, v, person, photoId))
  }

  /**
   * `add_existing_embedding`: accepts exactly a present vector of length 1404 and
   * then appends one entry; otherwise answers false and changes nothing.
   */
  function AddExistingEmbedding(e: Engine, v: Option<Vector>, person: PersonData, photoId: Option<int>): (r: Outcome)
    ensures r.ok <==> v.Some? && |v.value| == EmbeddingSize
    ensures !r.ok ==> r.engine == e
    ensures r.ok ==> r.engine == AddToMemory(e, v.value, person, photoId)
    ensures Valid(e) ==> Valid(r.engine)
  {
    if v.Some? && |v.value| == EmbeddingSize then Outcome(AddToMemory(e, v.value, person, photoId), true)
    else Outcome(e, false)
  }

  /**
   * `train_from_image`, and `train_from_pil` with the PIL image taken as the image
   * itself: enrols the extracted embedding, or answers false and changes nothing
   * when no face is found.
   */
  function TrainFromImage(k: Backend, e: Engine, img: Image, person: PersonData, photoId: Option<int>): (r: Outcome)
    ensures r.ok <==> ExtractEmbedding(k, img).Some?
    ensures !r.ok ==> r.engine == e
    ensures r.ok ==> r.engine == AddToMemory(e, ExtractEmbedding(k, img).value, person, photoId)
    ensures Valid(e) ==> Valid(r.engine)
  {
    match ExtractEmbedding(k, img)
    case None => Outcome(e, false)
    case Some(v) => Outcome(AddToMemory(e, v, person, photoId), true)
  }

  /** `train_from_bytes`: as `TrainFromImage`, after decoding the bytes. */
  function TrainFromBytes(k: Backend, e: Engine, data: seq<bv8>, person: PersonData, photoId: Option<int>): (r: Outcome)
    ensures k.decode(data).None? ==> r == Outcome(e, false)
    ensures k.decode(data).Some? ==> r == TrainFromImage(k, e, k.decode(data).value, person, photoId)
    ensures Valid(e) ==> Valid(r.engine)
  {
    match ExtractFromBytes(k, data)
    case None => Outcome(e, false)
    case Some(v) => Outcome(AddToMemory(e, v, person, photoId), true)
  }

  /** `clear_embeddings`: empties the gallery; the cache is left as it is. */
  function ClearEmbeddings(e: Engine): (r: Engine)
    ensures |r.gallery| == 0 && r.cache == e.cache && SameSettings(r, e)
    ensures Valid(e) ==> Valid(r)
  {
    e.(gallery := [])
  }

  /**
   * `remove_embedding_by_photo_id`: when the photo is enrolled, the first entry
   * for it leaves the gallery and the photo leaves the cache; otherwise nothing
   * changes and the answer is false.
   */
  function RemoveByPhotoId(e: Engine, photoId: int): (r: Outcome)
    ensures r.ok <==> HasPhoto(e.gallery, photoId)
    ensures !r.ok ==> r.engine == e
    ensures r.ok ==> r.engine.gallery == RemovePhoto(e.gallery, photoId).0
    ensures r.ok ==> r.engine.cache.Keys == e.cache.Keys - {photoId}
    ensures forall p :: p in r.engine.cache ==> p in e.cache && r.engine.cache[p] == e.cache[p]
    ensures SameSettings(r.engine, e)
    ensures Valid(e) ==> Valid(r.engine)
  {
    var (g, removed) := RemovePhoto(e.gallery, photoId);
    RemoveWellSized(e.gallery, photoId);
    if removed then Outcome(e.(gallery := g, cache := e.cache - {photoId}), true)
    else Outcome(e, false)
  }

  /**
   * The argument of `set_recognition_threshold` as `safe_float` sees it: `None`,
   * a value `float()` converts, one it rejects with `TypeError` or `ValueError`,
   * or an integer beyond the float range, on which `float()` raises `OverflowError`.
   */
  datatype ThresholdInput = Missing | Numeric(value: real) | NotNumeric | OutOfRange

  /** The exception that escapes `safe_float`, which catches only `TypeError` and `ValueError`. */
  datatype Raised = OverflowError

  /**
   * `safe_float(value, default)`: a number passes, `None` and values `float()`
   * rejects give the default, and an overflowing conversion raises.
   */
  function SafeFloat(input: ThresholdInput, default: real): (r: Result<real, Raised>)
    ensures r.Failure? <==> input.OutOfRange?
    ensures input.Numeric? ==> r == Success(input.value)
    ensures input.Missing? || input.NotNumeric? ==> r == Success(default)
  {
    match input
    case Numeric(x) => Success(x)
    case OutOfRange => Failure(OverflowError)
    case _ => Success(default)
  }

  /** `max(0.1, min(1.0, x))`. */
  function Clamp(x: real): (r: real)
    ensures MinThreshold <= r <= MaxThreshold
    ensures MinThreshold <= x <= MaxThreshold ==> r == x
    ensures x < MinThreshold ==> r == MinThreshold
    ensures x > MaxThreshold ==> r == MaxThreshold
  {
    var upper := if MaxThreshold <= x then MaxThreshold else x;
    if MinThreshold >= upper then MinThreshold else upper
  }

  /**
   * `set_recognition_threshold`: the new threshold is the clamped number, or the
   * default 0.6 when the input is not numeric; nothing else changes. An overflowing
   * conversion escapes, as nothing in the method catches it.
   */
  function SetThreshold(e: Engine, input: ThresholdInput): (r: Result<Engine, Raised>)
    ensures r.Failure? <==> input.OutOfRange?
    ensures input.Numeric? ==> r.Success? && r.value.threshold == Clamp(input.value)
    ensures input.Missing? || input.NotNumeric? ==> r.Success? && r.value.threshold == DefaultThreshold
    ensures r.Success? ==> MinThreshold <= r.value.threshold <= MaxThreshold
    ensures r.Success? ==> r.value.gallery == e.gallery && r.value.cache == e.cache
    ensures r.Success? ==> r.value.minDetectionConfidence == e.minDetectionConfidence && r.value.showLandmarks == e.showLandmarks
    ensures r.Success? && Valid(e) ==> Valid(r.value)
  {
    match SafeFloat(input, DefaultThreshold)
    case Success(x) => Success(e.(threshold := Clamp(x)))
    case Failure(err) => Failure(err)
  }

  /** Clamping twice is clamping once. */
  lemma ClampIdempotent(x: real)
    ensures Clamp(Clamp(x)) == Clamp(x)
  {
  }

  /** Setting a valid recognizer's own threshold again changes nothing. */
  lemma SetCurrentThreshold(e: Engine)
    requires Valid(e)
    ensures SetThreshold(e, Numeric(e.threshold)) == Success(e)
  {
  }

  datatype Status = Ready | NeedsTraining

  /** The dictionary `get_model_info` returns. */
  datatype Info = Info(
    loadedEmbeddings: nat,
    uniquePeople: nat,
    recognitionThreshold: real,
    minDetectionConfidence: real,
    embeddingSize: nat,
    cacheSize: nat,
    showLandmarks: bool,
    status: Status)

  /**
   * `get_model_info`: the counts it reports agree with the gallery and cache, the
   * number of people is the size of `set(known_ids)`, which is never more than the
   * entries and zero only when the gallery is empty, the settings are reported as
   * they are, and the status is ready exactly when something is enrolled.
   */
  function ModelInfo(e: Engine): (r: Info)
    ensures r.loadedEmbeddings == |e.gallery| && r.cacheSize == |e.cache|
    ensures r.uniquePeople <= r.loadedEmbeddings
    ensures r.uniquePeople == 0 <==> r.loadedEmbeddings == 0
    ensures r.status == Ready <==> r.loadedEmbeddings > 0
    ensures r.uniquePeople == |set id | id in PersonIds(e.gallery)|
    ensures r.recognitionThreshold == e.threshold && r.embeddingSize == 1404
    ensures r.minDetectionConfidence == e.minDetectionConfidence && r.showLandmarks == e.showLandmarks
  {
    UniquePeopleBounds(e.gallery);
    UniquePeopleIsIdSet(e.gallery);
    Info(|e.gallery|, UniquePeople(e.gallery), e.threshold, e.minDetectionConfidence, EmbeddingSize,
      |e.cache|, e.showLandmarks, if |e.gallery| > 0 then Ready else NeedsTraining)
  }

  /** `_calculate_similarity` with the backend's square root. */
  function SimilarityOf(k: Backend): (Vector, Vector) -> real {
    (a: Vector, b: Vector) => Similarity(k.root, a, b)
  }

  /**
   * `recognize_face` on the current gallery and threshold. With a valid threshold
   * a match is reported exactly when some entry scores strictly above the
   * threshold, and the reported confidence is above it.
   */
  function RecognizeQuery(k: Backend, e: Engine, query: Option<Vector>): (r: Recognition)
    requires Valid(e)
    ensures r.personId.Some? <==> query.Some? && exists i :: 0 <= i < |e.gallery| && Similarity(k.root, query.value, e.gallery[i].vector) > e.threshold
    ensures r.personId.None? ==> r == NoMatch
    ensures r.personId.Some? ==> r.confidence > e.threshold
    ensures r.personId.Some? ==> exists i :: (0 <= i < |e.gallery|
      && r == Recognition(Some(e.gallery[i].personId), Similarity(k.root, query.value, e.gallery[i].vector), e.gallery[i].photoId))
  {
    MatchReported(query, e.gallery, e.threshold, SimilarityOf(k));
    Recognize(query, e.gallery, e.threshold, SimilarityOf(k))
  }

  /** With a positive threshold, a match is reported exactly when some score beats it. */
  lemma MatchReported(query: Option<Vector>, g: Gallery, threshold: real, sim: (Vector, Vector) -> real)
    requires threshold > 0.0
    ensures var r := Matcher.Recognize(query, g, threshold, sim);
      && (r.personId.Some? <==> query.Some? && exists i :: 0 <= i < |g| && sim(query.value, g[i].vector) > threshold)
      && (r.personId.Some? ==> exists i :: (0 <= i < |g|
            && r == Recognition(Some(g[i].personId), sim(query.value, g[i].vector), g[i].photoId)))
  {
    var r := Matcher.Recognize(query, g, threshold, sim);
    if query.Some? {
      var s := Scores(query.value, g, sim);
      if r.personId.Some? {
        ScanCorrect(s, threshold);
        var i := Scan(s, threshold).index.value;
        assert IsFirstBest(s, threshold, i);
      } else {
        forall i | 0 <= i < |g|
          ensures sim(query.value, g[i].vector) <= threshold
        {
          assert !Accepts(s[i], threshold);
        }
      }
    }
  }

  /** Adding an embedding for a photo not yet enrolled and then removing that photo restores the recognizer. */
  lemma RemoveAfterAddExisting(e: Engine, v: Vector, person: PersonData, photoId: int)
    requires |v| == EmbeddingSize
    requires !HasPhoto(e.gallery, photoId) && photoId !in e.cache
    ensures RemoveByPhotoId(AddExistingEmbedding(e, Some(v), person, Some(photoId)).engine, photoId) == Outcome(e, true)
  {
    var a := AddExistingEmbedding(e, Some(v), person, Some(photoId)).engine;
    assert a.gallery == Add(e.gallery, v, person, Some(photoId)) && a.cache == e.cache && SameSettings(a, e);
    RemoveAfterAdd(e.gallery, v, person, photoId);
    var o := RemoveByPhotoId(a, photoId);
    assert o.ok && o.engine.gallery == e.gallery;
    assert o.engine.cache == e.cache by {
      assert o.engine.cache.Keys == e.cache.Keys;
    }
    assert o.engine == e;
  }

  /**
   * After `clear_embeddings` nothing is recognized and the status is back to
   * needing training, while the cache still reports its old size.
   */
  lemma ClearForgetsAll(k: Backend, e: Engine, query: Option<Vector>)
    requires Valid(e)
    ensures RecognizeQuery(k, ClearEmbeddings(e), query) == NoMatch
    ensures ModelInfo(ClearEmbeddings(e)).status == NeedsTraining
    ensures ModelInfo(ClearEmbeddings(e)).cacheSize == ModelInfo(e).cacheSize
  {
  }
}

=== FILE: store.dfy ===
/**
 * The persistent store as the recognizer sees it: the active people, each
 * person's photo rows, and the three per-photo reads the training paths make.
 * The SQLite schema, the BLOB encoding of embeddings and image decoding belong
 * to the store and appear here only through their results.
 */
module Store {
  import opened Numerics
  import opened Extractor

  /** The answer of a per-photo read: a value, `None`, or an exception. */
  datatype Read<T> = Found(value: T) | Absent | Fault

  /** A row of `get_all_people`: id, family name, given name (both NOT NULL). */
  datatype Person = Person(id: int, lastName: string, firstName: string)

  /**
   * A row of `get_person_photos`: its id, whether the row's `face_embedding`
   * column is non-empty, what `get_photo_embedding` answers for it (the decoded
   * vector, `None`, or an exception) and what `get_photo_as_image` answers.
   */
  datatype Photo = Photo(id: int, flagged: bool, embedding: Read<Vector>, image: Read<Image>)

  datatype Store = Store(people: seq<Person>, photos: map<int, seq<Photo>>)

  /** `get_person_photos(person_id)`: the person's rows, none for an unknown id. */
  function PhotosOf(st: Store, personId: int): seq<Photo> {
    if personId in st.photos then st.photos[personId] else []
  }

  function SaveInRows(rows: seq<Photo>, photoId: int, v: Vector): (r: seq<Photo>)
    ensures |r| == |rows|
    ensures forall i :: 0 <= i < |rows| ==> r[i].id == rows[i].id && r[i].image == rows[i].image
    ensures forall i :: 0 <= i < |rows| && rows[i].id == photoId ==> r[i].flagged && r[i].embedding == Found(v)
    ensures forall i :: 0 <= i < |rows| && rows[i].id != photoId ==> r[i] == rows[i]
  {
    seq(|rows|, i requires 0 <= i < |rows| =>
      if rows[i].id == photoId then rows[i].(flagged := true, embedding := Found(v)) else rows[i])
  }

  /**
   * `update_photo_embedding(photo_id, embedding)`: the row with that id now holds
   * the vector; people and every other row are untouched.
   */
  function SaveEmbedding(st: Store, photoId: int, v: Vector): (r: Store)
    ensures r.people == st.people && r.photos.Keys == st.photos.Keys
    ensures forall pid :: pid in st.photos ==> r.photos[pid] == SaveInRows(st.photos[pid], photoId, v)
  {
    st.(photos := map pid | pid in st.photos :: SaveInRows(st.photos[pid], photoId, v))
  }

  /** Saving a vector and reading the photo's embedding back gives that vector. */
  lemma SaveThenRead(st: Store, personId: int, i: nat, v: Vector)
    requires i < |PhotosOf(st, personId)|
    ensures var p := PhotosOf(SaveEmbedding(st, PhotosOf(st, personId)[i].id, v), personId)[i];
      p.flagged && p.embedding == Found(v)
  {
  }
}

=== FILE: text.dfy ===
/**
 * Display names: `f"{last_name} {first_name}".strip()`, with Python's
 * `str.strip()` removing leading and trailing whitespace.
 */
module Text {

  /** The characters Python's `str.isspace()` accepts, which `str.strip()` removes. */
  predicate IsSpace(c: char) {
    || c == ' ' || c == '\t' || c == '\n' || c == '\r' || c == '\U{000B}' || c == '\U{000C}'
    || ('\U{001C}' <= c <= '\U{001F}') || c == '\U{0085}' || c == '\U{00A0}' || c == '\U{1680}'
    || ('\U{2000}' <= c <= '\U{200A}') || c == '\U{2028}' || c == '\U{2029}' || c == '\U{202F}'
    || c == '\U{205F}' || c == '\U{3000}'
  }

  predicate AllSpace(s: string) {
    forall i :: 0 <= i < |s| ==> IsSpace(s[i])
  }

  /** `s` has no whitespace at either end. */
  predicate Trimmed(s: string) {
    |s| == 0 || (!IsSpace(s[0]) && !IsSpace(s[|s| - 1]))
  }

  function TrimStart(s: string): (r: string)
    ensures |r| <= |s| && r == s[|s| - |r|..]
    ensures AllSpace(s[..|s| - |r|])
    ensures |r| == 0 || !IsSpace(r[0])
  {
    if |s| > 0 && IsSpace(s[0]) then
      var t := TrimStart(s[1..]);
      assert s[..|s| - |t|] == [s[0]] + s[1..][..|s| - 1 - |t|];
      t
    else s
  }

  function TrimEnd(s: string): (r: string)
    ensures |r| <= |s| && r == s[..|r|]
    ensures AllSpace(s[|r|..])
    ensures |r| == 0 || !IsSpace(r[|r| - 1])
  {
    if |s| > 0 && IsSpace(s[|s| - 1]) then
      var t := TrimEnd(s[..|s| - 1]);
      assert s[|t|..] == s[..|s| - 1][|t|..] + [s[|s| - 1]];
      t
    else s
  }

  /**
   * `str.strip()`: the result is the slice of `s` left once every leading and
   * trailing whitespace character is removed, and it has none at either end.
   */
  function Strip(s: string): (r: string)
    ensures Trimmed(r)
    ensures exists i, j :: 0 <= i <= j <= |s| && r == s[i..j] && AllSpace(s[..i]) && AllSpace(s[j..])
  {
    var t := TrimStart(s);
    var r := TrimEnd(t);
    var i := |s| - |t|;
    var j := i + |r|;
    assert r == s[i..j];
    assert s[..i] == s[..|s| - |t|];
    assert s[j..] == t[|r|..];
    assert 0 <= i <= j <= |s| && r == s[i..j] && AllSpace(s[..i]) && AllSpace(s[j..]);
    r
  }

  /** The display name of a person: family name, a space, given name, stripped. */
  function DisplayName(lastName: string, firstName: string): string {
    Strip(lastName + " " + firstName)
  }

  /** A string already without surrounding whitespace is left alone by `Strip`. */
  lemma StripTrimmed(s: string)
    requires Trimmed(s)
    ensures Strip(s) == s
  {
  }

  /** Stripping twice is stripping once. */
  lemma StripIdempotent(s: string)
    ensures Strip(Strip(s)) == Strip(s)
  {
    StripTrimmed(Strip(s));
  }

  /** Two non-empty names without surrounding whitespace are joined by exactly one space. */
  lemma DisplayNameJoins(lastName: string, firstName: string)
    requires |lastName| > 0 && |firstName| > 0
    requires Trimmed(lastName) && Trimmed(firstName)
    ensures DisplayName(lastName, firstName) == lastName + " " + firstName
  {
    var s := lastName + " " + firstName;
    assert s[0] == lastName[0] && s[|s| - 1] == firstName[|firstName| - 1];
    StripTrimmed(s);
  }

  /** With an empty given name the display name is the stripped family name. */
  lemma DisplayNameFamilyOnly(lastName: string)
    ensures DisplayName(lastName, "") == Strip(lastName)
  {
    assert lastName + " " + "" == lastName + [' '];
    StripAppendSpace(lastName, ' ');
  }

  lemma StripAppendSpace(s: string, c: char)
    requires IsSpace(c)
    ensures Strip(s + [c]) == Strip(s)
  {
    TrimStartAppendSpace(s, c);
    var t := TrimStart(s);
    if |t| > 0 {
      assert (t + [c])[..|t|] == t;
    }
  }

  lemma {:induction false} TrimStartAppendSpace(s: string, c: char)
    requires IsSpace(c)
    ensures TrimStart(s + [c]) == if |TrimStart(s)| == 0 then [] else TrimStart(s) + [c]
  {
    if |s| > 0 && IsSpace(s[0]) {
      assert (s + [c])[1..] == s[1..] + [c];
      TrimStartAppendSpace(s[1..], c);
    } else if |s| == 0 {
      assert [c][1..] == [];
    }
  }
}

=== FILE: training.dfy ===
/**
 * The store-driven training paths of the recognizer: `batch_train_person`, which
 * enrols one person's photos through the cache, the stored embedding or a fresh
 * extraction, and `load_embeddings_from_database`, the full resynchronisation.
 */
module Training {
  import opened Wrappers
  import opened Numerics
  import opened Text
  import opened Gallery
  import opened Extractor
  import opened Store
  import opened Recognizer

  /**
   * The state of a training loop: the recognizer, the store, the running count
   * and whether a store read has raised (which ends the loop).
   */
  datatype Progress = Progress(engine: Engine, store: Store, trained: nat, raised: bool)

  /** `g` starts with `g0`. */
  predicate Extends(g0: Gallery, g: Gallery) {
    |g0| <= |g| && g[..|g0|] == g0
  }

  /** Every cached vector is still cached, unchanged. */
  predicate KeepsCache(c0: map<int, Vector>, c: map<int, Vector>) {
    forall q :: q in c0 ==> q in c && c[q] == c0[q]
  }

  predicate HasPhotoId(photos: seq<Photo>, id: int) {
    exists j :: 0 <= j < |photos| && photos[j].id == id
  }

  /**
   * The entries past `from` belong to the person, carry the name, come from one of
   * the photos and hold the vector cache `c` keeps for that photo.
   */
  predicate EntriesFor(g: Gallery, from: nat, personId: int, name: string, photos: seq<Photo>, c: map<int, Vector>) {
    forall i :: from <= i < |g| ==>
      && g[i].personId == personId && g[i].name == name
      && g[i].photoId.Some? && HasPhotoId(photos, g[i].photoId.value)
      && g[i].photoId.value in c && g[i].vector == c[g[i].photoId.value]
  }

  /** The person data `batch_train_person` passes: the id and the name as `last_name`. */
  function BatchPerson(personId: int, personName: string): PersonData {
    PersonData(Some(personId), Some(personName), None)
  }

  /** The photo is enrolled by the first branch that applies, seen from cache `c`. */
  predicate TrainsFrom(k: Backend, c: map<int, Vector>, p: Photo) {
    if p.id in c then |c[p.id]| == EmbeddingSize
    else if p.flagged then p.embedding.Found? && |p.embedding.value| == EmbeddingSize
    else p.image.Found? && ExtractEmbedding(k, p.image.value).Some?
  }

  /**
   * The vector the branch that applies enrols, seen from cache `c`: the cached
   * one, the stored one, or the one extracted from the photo's image. It is only
   * looked at when `TrainsFrom` holds.
   */
  function BranchVector(k: Backend, c: map<int, Vector>, p: Photo): Vector {
    if p.id in c then c[p.id]
    else if p.flagged then (match p.embedding case Found(v) => v case _ => [])
    else (match p.image case Found(img) => ExtractEmbedding(k, img).GetOr([]) case _ => [])
  }

  /** The branch that applies extracts the embedding and writes it back with `update_photo_embedding`. */
  predicate WritesBack(c: map<int, Vector>, p: Photo) {
    p.id !in c && !p.flagged
  }

  /** The store read of the branch that applies raises. */
  predicate RaisesFrom(c: map<int, Vector>, p: Photo) {
    p.id !in c && (if p.flagged then p.embedding.Fault? else p.image.Fault?)
  }

  /**
   * What one iteration promises: it raises exactly when the read of the branch
   * that applies raises; it counts the photo exactly when that branch enrols it,
   * appending one entry for the person and photo with the branch's vector, which
   * is then also the photo's cached vector; only the extraction branch writes to
   * the store, saving that vector for the photo.
   */
  predicate StepOk(k: Backend, pr: Progress, p: Photo, personId: int, personName: string, r: Progress) {
    && (r.raised <==> RaisesFrom(pr.engine.cache, p))
    && pr.trained <= r.trained <= pr.trained + 1
    && (r.trained == pr.trained + 1 <==> !r.raised && TrainsFrom(k, pr.engine.cache, p))
    && |r.engine.gallery| == |pr.engine.gallery| + (r.trained - pr.trained)
    && Extends(pr.engine.gallery, r.engine.gallery)
    && (r.trained > pr.trained ==>
          && r.engine.gallery[|pr.engine.gallery|].personId == personId
          && r.engine.gallery[|pr.engine.gallery|].name == DisplayName(personName, "")
          && r.engine.gallery[|pr.engine.gallery|].photoId == Some(p.id)
          && r.engine.gallery[|pr.engine.gallery|].vector == BranchVector(k, pr.engine.cache, p))
    && r.engine.cache == (if r.trained > pr.trained then pr.engine.cache[p.id := BranchVector(k, pr.engine.cache, p)] else pr.engine.cache)
    && r.store == (if r.trained > pr.trained && WritesBack(pr.engine.cache, p)
                   then SaveEmbedding(pr.store, p.id, BranchVector(k, pr.engine.cache, p)) else pr.store)
    && KeepsCache(pr.engine.cache, r.engine.cache)
    && SameSettings(r.engine, pr.engine)
    && (Valid(pr.engine) ==> Valid(r.engine))
  }

  /** Caching a vector of the embedding length keeps the recognizer valid. */
  lemma CacheValid(e: Engine, id: int, v: Vector)
    ensures Valid(e) && |v| == EmbeddingSize ==> Valid(e.(cache := e.cache[id := v]))
  {
  }

  /** The first branch: the photo's vector is already cached. */
  function TrainCached(k: Backend, pr: Progress, p: Photo, personId: int, personName: string): (r: Progress)
    requires !pr.raised && p.id in pr.engine.cache
    ensures StepOk(k, pr, p, personId, personName, r)
  {
    var o := AddExistingEmbedding(pr.engine, Some(pr.engine.cache[p.id]), BatchPerson(personId, personName), Some(p.id));
    if o.ok then pr.(engine := o.engine, trained := pr.trained + 1) else pr
  }

  /** The second branch: the row has an embedding; an accepted one is cached. */
  function TrainStored(k: Backend, pr: Progress, p: Photo, personId: int, personName: string): (r: Progress)
    requires !pr.raised && p.id !in pr.engine.cache && p.flagged
    ensures StepOk(k, pr, p, personId, personName, r)
  {
    match p.embedding
    case Fault => pr.(raised := true)
    case Absent => pr
    case Found(v) =>
      var o := AddExistingEmbedding(pr.engine, Some(v), BatchPerson(personId, personName), Some(p.id));
      CacheValid(o.engine, p.id, v);
      if o.ok then pr.(engine := o.engine.(cache := o.engine.cache[p.id := v]), trained := pr.trained + 1)
      else pr
  }

  /**
   * The third branch: the photo's image is run through the extractor (inside
   * `train_from_pil`); on success the embedding, extracted again with the same
   * result, is written back to the store and cached.
   */
  function TrainExtracted(k: Backend, pr: Progress, p: Photo, personId: int, personName: string): (r: Progress)
    requires !pr.raised && p.id !in pr.engine.cache && !p.flagged
    ensures StepOk(k, pr, p, personId, personName, r)
  {
    match p.image
    case Fault => pr.(raised := true)
    case Absent => pr
    case Found(img) =>
      var o := TrainFromImage(k, pr.engine, img, BatchPerson(personId, personName), Some(p.id));
      if o.ok then
        var v := ExtractEmbedding(k, img).value;
        CacheValid(o.engine, p.id, v);
        pr.(engine := o.engine.(cache := o.engine.cache[p.id := v]),
            store := SaveEmbedding(pr.store, p.id, v),
            trained := pr.trained + 1)
      else pr
  }

  /** One iteration of the loop of `batch_train_person`: the first branch that applies. */
  function TrainOne(k: Backend, pr: Progress, p: Photo, personId: int, personName: string): (r: Progress)
    requires !pr.raised
    ensures StepOk(k, pr, p, personId, personName, r)
  {
    if p.id in pr.engine.cache then TrainCached(k, pr, p, personId, personName)
    else if p.flagged then TrainStored(k, pr, p, personId, personName)
    else TrainExtracted(k, pr, p, personId, personName)
  }

  /**
   * The loop over the person's photos, which an exception ends. The gallery only
   * grows, by exactly the number of photos counted, with entries for the person
   * and these photos; the cache only gains vectors.
   */
  function TrainEach(k: Backend, pr: Progress, photos: seq<Photo>, personId: int, personName: string): (r: Progress)
    ensures pr.raised ==> r == pr
    ensures pr.trained <= r.trained <= pr.trained + |photos|
    ensures |r.engine.gallery| == |pr.engine.gallery| + (r.trained - pr.trained)
    ensures Extends(pr.engine.gallery, r.engine.gallery)
    ensures EntriesFor(r.engine.gallery, |pr.engine.gallery|, personId, DisplayName(personName, ""), photos, r.engine.cache)
    ensures KeepsCache(pr.engine.cache, r.engine.cache)
    ensures SameSettings(r.engine, pr.engine)
    ensures Valid(pr.engine) ==> Valid(r.engine)
    decreases |photos|
  {
    if pr.raised || |photos| == 0 then pr
    else
      var next := TrainOne(k, pr, photos[0], personId, personName);
      var r := TrainEach(k, next, photos[1..], personId, personName);
      EachExtends(pr, next, r, photos, personId, personName);
      r
  }

  lemma EachExtends(pr: Progress, next: Progress, r: Progress, photos: seq<Photo>, personId: int, personName: string)
    requires |photos| > 0
    requires |next.engine.gallery| == |pr.engine.gallery| + (next.trained - pr.trained)
    requires next.trained <= pr.trained + 1
    requires Extends(pr.engine.gallery, next.engine.gallery) && Extends(next.engine.gallery, r.engine.gallery)
    requires next.trained > pr.trained ==>
      && next.engine.gallery[|pr.engine.gallery|].personId == personId
      && next.engine.gallery[|pr.engine.gallery|].name == DisplayName(personName, "")
      && next.engine.gallery[|pr.engine.gallery|].photoId == Some(photos[0].id)
      && photos[0].id in next.engine.cache
      && next.engine.gallery[|pr.engine.gallery|].vector == next.engine.cache[photos[0].id]
    requires KeepsCache(next.engine.cache, r.engine.cache)
    requires EntriesFor(r.engine.gallery, |next.engine.gallery|, personId, DisplayName(personName, ""), photos[1..], r.engine.cache)
    ensures Extends(pr.engine.gallery, r.engine.gallery)
    ensures EntriesFor(r.engine.gallery, |pr.engine.gallery|, personId, DisplayName(personName, ""), photos, r.engine.cache)
  {
    var g0, g1, g := pr.engine.gallery, next.engine.gallery, r.engine.gallery;
    assert g[..|g0|] == g1[..|g1|][..|g0|];
    forall i | |g0| <= i < |g|
      ensures g[i].personId == personId && g[i].name == DisplayName(personName, "")
      ensures g[i].photoId.Some? && HasPhotoId(photos, g[i].photoId.value)
      ensures g[i].photoId.value in r.engine.cache && g[i].vector == r.engine.cache[g[i].photoId.value]
    {
      if i < |g1| {
        assert g[i] == g1[i];
        assert HasPhotoId(photos, photos[0].id) by { assert photos[0].id == photos[0].id; }
      } else {
        var j :| 0 <= j < |photos[1..]| && photos[1..][j].id == g[i].photoId.value;
        assert photos[j + 1].id == g[i].photoId.value;
      }
    }
  }

  /** The answer of `batch_train_person`: the new recognizer and store, and the count returned. */
  datatype BatchResult = BatchResult(engine: Engine, store: Store, count: nat)

  /**
   * `batch_train_person`: trains on every photo the store lists for the person.
   * The count never exceeds the number of photos; the old gallery is kept as a
   * prefix and every new entry is the person's, named after `person_name`, for one
   * of the photos. A non-zero count is exactly the growth of the gallery; after an
   * exception the answer is 0 even though entries may already have been added.
   */
  function BatchTrainPerson(k: Backend, e: Engine, st: Store, personId: int, personName: string): (r: BatchResult)
    ensures r.count <= |PhotosOf(st, personId)|
    ensures Extends(e.gallery, r.engine.gallery)
    ensures r.count > 0 ==> |r.engine.gallery| == |e.gallery| + r.count
    ensures EntriesFor(r.engine.gallery, |e.gallery|, personId, Strip(personName), PhotosOf(st, personId), r.engine.cache)
    ensures KeepsCache(e.cache, r.engine.cache)
    ensures SameSettings(r.engine, e)
    ensures Valid(e) ==> Valid(r.engine)
  {
    var done := TrainEach(k, Progress(e, st, 0, false), PhotosOf(st, personId), personId, personName);
    DisplayNameFamilyOnly(personName);
    BatchResult(done.engine, done.store, if done.raised then 0 else done.trained)
  }

  predicate DistinctIds(photos: seq<Photo>) {
    forall i, j :: 0 <= i < j < |photos| ==> photos[i].id != photos[j].id
  }

  /** Some photo's applicable read raises, seen from cache `c`. */
  predicate AnyRaises(c: map<int, Vector>, photos: seq<Photo>) {
    exists i :: 0 <= i < |photos| && RaisesFrom(c, photos[i])
  }

  /** The number of photos the first applicable branch enrols, seen from cache `c`. */
  function CountTrainable(k: Backend, c: map<int, Vector>, photos: seq<Photo>): nat {
    if |photos| == 0 then 0
    else (if TrainsFrom(k, c, photos[0]) then 1 else 0) + CountTrainable(k, c, photos[1..])
  }

  /** Two caches agree about one photo id. */
  predicate AgreeAt(c: map<int, Vector>, c0: map<int, Vector>, id: int) {
    (id in c <==> id in c0) && (id in c ==> c[id] == c0[id])
  }

  /** Reference: the number of photos enrolled before the first read that raises, seen from cache `c`. */
  function CountBeforeRaise(k: Backend, c: map<int, Vector>, photos: seq<Photo>): nat {
    if |photos| == 0 || RaisesFrom(c, photos[0]) then 0
    else (if TrainsFrom(k, c, photos[0]) then 1 else 0) + CountBeforeRaise(k, c, photos[1..])
  }

  /** Without a raising read, counting up to the first raise counts every trainable photo. */
  lemma {:induction false} CountBeforeNoRaise(k: Backend, c: map<int, Vector>, photos: seq<Photo>)
    requires !AnyRaises(c, photos)
    ensures CountBeforeRaise(k, c, photos) == CountTrainable(k, c, photos)
    decreases |photos|
  {
    if |photos| > 0 {
      assert !RaisesFrom(c, photos[0]);
      CountBeforeNoRaise(k, c, photos[1..]);
    }
  }

  /**
   * With distinct photo ids, the loop enrols exactly the trainable photos before
   * the first raising read, whether or not one raises: nothing is undone.
   */
  lemma {:induction false} TrainEachGrowth(k: Backend, pr: Progress, photos: seq<Photo>, personId: int, personName: string, c0: map<int, Vector>)
    requires !pr.raised
    requires DistinctIds(photos)
    requires forall i :: 0 <= i < |photos| ==> AgreeAt(pr.engine.cache, c0, photos[i].id)
    ensures TrainEach(k, pr, photos, personId, personName).trained == pr.trained + CountBeforeRaise(k, c0, photos)
    decreases |photos|
  {
    if |photos| > 0 {
      var p := photos[0];
      var next := TrainOne(k, pr, p, personId, personName);
      assert AgreeAt(pr.engine.cache, c0, p.id);
      if next.raised {
        assert RaisesFrom(c0, p);
      } else {
        var rest := photos[1..];
        forall i | 0 <= i < |rest|
          ensures AgreeAt(next.engine.cache, c0, rest[i].id)
        {
          assert rest[i] == photos[i + 1];
          assert rest[i].id != p.id;
          assert AgreeAt(pr.engine.cache, c0, rest[i].id);
        }
        TrainEachGrowth(k, next, rest, personId, personName, c0);
      }
    }
  }

  lemma {:induction false} TrainEachReference(k: Backend, pr: Progress, photos: seq<Photo>, personId: int, personName: string, c0: map<int, Vector>)
    requires !pr.raised
    requires DistinctIds(photos)
    requires forall i :: 0 <= i < |photos| ==> AgreeAt(pr.engine.cache, c0, photos[i].id)
    ensures var r := TrainEach(k, pr, photos, personId, personName);
      && (r.raised <==> AnyRaises(c0, photos))
      && (!r.raised ==> r.trained == pr.trained + CountTrainable(k, c0, photos))
      && (!r.raised ==> forall i :: 0 <= i < |photos| && TrainsFrom(k, c0, photos[i]) ==> photos[i].id in r.engine.cache)
    decreases |photos|
  {
    var r := TrainEach(k, pr, photos, personId, personName);
    if |photos| > 0 {
      var p := photos[0];
      var next := TrainOne(k, pr, p, personId, personName);
      assert AgreeAt(pr.engine.cache, c0, p.id);
      if next.raised {
        assert RaisesFrom(c0, p);
      } else {
        var rest := photos[1..];
        forall i | 0 <= i < |rest|
          ensures AgreeAt(next.engine.cache, c0, rest[i].id)
        {
          assert rest[i] == photos[i + 1];
          assert rest[i].id != p.id;
          assert AgreeAt(pr.engine.cache, c0, rest[i].id);
          assert rest[i].id in next.engine.cache <==> rest[i].id in next.engine.cache.Keys - {p.id};
        }
        TrainEachReference(k, next, rest, personId, personName, c0);
        if AnyRaises(c0, photos) {
          var i :| 0 <= i < |photos| && RaisesFrom(c0, photos[i]);
          if i > 0 {
            assert RaisesFrom(c0, rest[i - 1]);
          }
        }
        if AnyRaises(c0, rest) {
          var i :| 0 <= i < |rest| && RaisesFrom(c0, rest[i]);
          assert RaisesFrom(c0, photos[i + 1]);
        }
        if !r.raised {
          forall i | 0 <= i < |photos| && TrainsFrom(k, c0, photos[i])
            ensures photos[i].id in r.engine.cache
          {
            if i > 0 {
              assert photos[i] == rest[i - 1];
            }
          }
        }
      }
    }
  }

  /** An id among the later photos is among the photos; with distinct ids the first photo's is not among the later ones. */
  lemma HasPhotoIdTail(photos: seq<Photo>, q: int)
    requires |photos| > 0
    ensures HasPhotoId(photos[1..], q) ==> HasPhotoId(photos, q)
    ensures DistinctIds(photos) ==> !HasPhotoId(photos[1..], photos[0].id)
  {
    if HasPhotoId(photos[1..], q) {
      var j :| 0 <= j < |photos[1..]| && photos[1..][j].id == q;
      assert photos[j + 1].id == q;
    }
  }

  /** Reference: the store after the loop's write-backs, up to the first read that raises. */
  function WrittenBack(k: Backend, c: map<int, Vector>, st: Store, photos: seq<Photo>): Store
    decreases |photos|
  {
    if |photos| == 0 || RaisesFrom(c, photos[0]) then st
    else
      var p := photos[0];
      var saved := if TrainsFrom(k, c, p) && WritesBack(c, p) then SaveEmbedding(st, p.id, BranchVector(k, c, p)) else st;
      WrittenBack(k, c, saved, photos[1..])
  }

  /**
   * With distinct photo ids the loop leaves the store as the reference write-backs
   * do, changes the cache only at these photos, and leaves every one of them that
   * is cached holding the vector of its branch.
   */
  lemma {:induction false} TrainEachWrites(k: Backend, pr: Progress, photos: seq<Photo>, personId: int, personName: string, c0: map<int, Vector>)
    requires !pr.raised
    requires DistinctIds(photos)
    requires forall i :: 0 <= i < |photos| ==> AgreeAt(pr.engine.cache, c0, photos[i].id)
    ensures var r := TrainEach(k, pr, photos, personId, personName);
      && r.store == WrittenBack(k, c0, pr.store, photos)
      && (forall q :: !HasPhotoId(photos, q) ==> AgreeAt(r.engine.cache, pr.engine.cache, q))
      && (forall i :: 0 <= i < |photos| && photos[i].id in r.engine.cache ==>
            r.engine.cache[photos[i].id] == BranchVector(k, c0, photos[i]))
    decreases |photos|
  {
    var r := TrainEach(k, pr, photos, personId, personName);
    if |photos| > 0 {
      var p := photos[0];
      var rest := photos[1..];
      var next := TrainOne(k, pr, p, personId, personName);
      assert AgreeAt(pr.engine.cache, c0, p.id);
      assert BranchVector(k, pr.engine.cache, p) == BranchVector(k, c0, p);
      if next.raised {
        assert RaisesFrom(c0, p);
        assert r == next && next.engine.cache == pr.engine.cache;
        forall i | 0 <= i < |photos| && photos[i].id in r.engine.cache
          ensures r.engine.cache[photos[i].id] == BranchVector(k, c0, photos[i])
        {
          assert AgreeAt(pr.engine.cache, c0, photos[i].id);
        }
      } else {
        forall i | 0 <= i < |rest|
          ensures AgreeAt(next.engine.cache, c0, rest[i].id)
        {
          assert rest[i] == photos[i + 1];
          assert rest[i].id != p.id;
          assert AgreeAt(pr.engine.cache, c0, rest[i].id);
        }
        TrainEachWrites(k, next, rest, personId, personName, c0);
        HasPhotoIdTail(photos, p.id);
        forall q | !HasPhotoId(photos, q)
          ensures AgreeAt(r.engine.cache, pr.engine.cache, q)
        {
          HasPhotoIdTail(photos, q);
          assert q != p.id by { assert photos[0].id == p.id; }
        }
        forall i | 0 <= i < |photos| && photos[i].id in r.engine.cache
          ensures r.engine.cache[photos[i].id] == BranchVector(k, c0, photos[i])
        {
          if i == 0 {
            assert AgreeAt(r.engine.cache, next.engine.cache, p.id);
          } else {
            assert photos[i] == rest[i - 1];
          }
        }
      }
    }
  }

  /**
   * With distinct photo ids, `batch_train_person` answers 0 when some applicable
   * read raises; otherwise it counts exactly the photos whose first applicable
   * branch enrols them, the gallery grows by that count, and each of those photos
   * is cached afterwards, so a second run takes the cache branch for it. Either
   * way the store holds the reference write-backs, every cached photo of the
   * person holds the vector of its branch, and so does every new entry.
   */
  lemma BatchMatchesReference(k: Backend, e: Engine, st: Store, personId: int, personName: string)
    requires DistinctIds(PhotosOf(st, personId))
    ensures var r := BatchTrainPerson(k, e, st, personId, personName);
      var photos := PhotosOf(st, personId);
      && (AnyRaises(e.cache, photos) ==> r.count == 0)
      && (!AnyRaises(e.cache, photos) ==>
            && r.count == CountTrainable(k, e.cache, photos)
            && |r.engine.gallery| == |e.gallery| + r.count
            && forall i :: 0 <= i < |photos| && TrainsFrom(k, e.cache, photos[i]) ==> photos[i].id in r.engine.cache)
      && r.store == WrittenBack(k, e.cache, st, photos)
      && (forall i :: 0 <= i < |photos| && photos[i].id in r.engine.cache ==>
            r.engine.cache[photos[i].id] == BranchVector(k, e.cache, photos[i]))
      && (forall n, j :: |e.gallery| <= n < |r.engine.gallery| && 0 <= j < |photos| && r.engine.gallery[n].photoId == Some(photos[j].id) ==>
            r.engine.gallery[n].vector == BranchVector(k, e.cache, photos[j]))
      && |r.engine.gallery| == |e.gallery| + CountBeforeRaise(k, e.cache, photos)
  {
    TrainEachReference(k, Progress(e, st, 0, false), PhotosOf(st, personId), personId, personName, e.cache);
    TrainEachWrites(k, Progress(e, st, 0, false), PhotosOf(st, personId), personId, personName, e.cache);
    TrainEachGrowth(k, Progress(e, st, 0, false), PhotosOf(st, personId), personId, personName, e.cache);
  }

  /**
   * An exception does not undo the photos already enrolled: when a read raises
   * after a trainable photo, `batch_train_person` answers 0 although the gallery
   * has grown.
   */
  lemma RaiseKeepsEnrolled(k: Backend, e: Engine, st: Store, personId: int, personName: string)
    requires DistinctIds(PhotosOf(st, personId))
    requires AnyRaises(e.cache, PhotosOf(st, personId))
    requires CountBeforeRaise(k, e.cache, PhotosOf(st, personId)) > 0
    ensures var r := BatchTrainPerson(k, e, st, personId, personName);
      r.count == 0 && |r.engine.gallery| > |e.gallery|
  {
    BatchMatchesReference(k, e, st, personId, personName);
  }

  /** The state of `load_embeddings_from_database`: the recognizer, the running count, whether a read raised. */
  datatype Loading = Loading(engine: Engine, loaded: nat, raised: bool)

  /** The entry the load appends for a stored vector: the person's id, "last first" stripped, the photo. */
  function StoredEntry(person: Person, photoId: int, v: Vector): Entry {
    Entry(v, person.id, DisplayName(person.lastName, person.firstName), Some(photoId))
  }

  /** Reference: the entries a person's rows contribute, one per stored vector of the embedding length. */
  function RowEntries(person: Person, photos: seq<Photo>): seq<Entry> {
    if |photos| == 0 then []
    else
      var head := match photos[0].embedding
        case Found(v) => if |v| == EmbeddingSize then [StoredEntry(person, photos[0].id, v)] else []
        case _ => [];
      head + RowEntries(person, photos[1..])
  }

  /** Reference: every person's row entries, person after person, in store order. */
  function StoredEntries(st: Store, people: seq<Person>): seq<Entry> {
    if |people| == 0 then []
    else RowEntries(people[0], PhotosOf(st, people[0].id)) + StoredEntries(st, people[1..])
  }

  predicate RowsFaultFree(photos: seq<Photo>) {
    forall j :: 0 <= j < |photos| ==> !photos[j].embedding.Fault?
  }

  /** No embedding read for the listed people raises. */
  predicate FaultFree(st: Store, people: seq<Person>) {
    forall i :: 0 <= i < |people| ==> RowsFaultFree(PhotosOf(st, people[i].id))
  }

  /** Reference: the cache that writing each entry's vector under its photo id, in gallery order, produces. */
  function CacheOf(g: Gallery): map<int, Vector> {
    if |g| == 0 then map[]
    else
      var c := CacheOf(g[..|g| - 1]);
      match g[|g| - 1].photoId
      case Some(id) => c[id := g[|g| - 1].vector]
      case None => c
  }

  /**
   * What a stretch of the load promises, given the entries the stretch stands for
   * and whether its reads are all fault-free: a loop already ended stays as it
   * is; otherwise it raises exactly when some read does, and without a raise it
   * appends exactly those entries and counts them; after a raise it keeps the
   * leading entries appended before it. The count always matches the
   * growth, a cache mirroring the gallery keeps mirroring it, and the settings
   * and validity are kept.
   */
  predicate LoadOk(ld: Loading, entries: seq<Entry>, faultFree: bool, r: Loading) {
    && (ld.raised ==> r == ld)
    && (!ld.raised ==> (r.raised <==> !faultFree))
    && (!r.raised ==> r.engine.gallery == ld.engine.gallery + entries && r.loaded == ld.loaded + |entries|)
    && (r.raised ==> ld.loaded <= r.loaded <= ld.loaded + |entries| && r.engine.gallery == ld.engine.gallery + entries[..r.loaded - ld.loaded])
    && ld.loaded <= r.loaded && |r.engine.gallery| == |ld.engine.gallery| + (r.loaded - ld.loaded)
    && (ld.engine.cache == CacheOf(ld.engine.gallery) ==> r.engine.cache == CacheOf(r.engine.gallery))
    && SameSettings(r.engine, ld.engine)
    && (Valid(ld.engine) ==> Valid(r.engine))
  }

  /** Two consecutive stretches make one, for the joined entries. */
  lemma LoadCompose(ld: Loading, e1: seq<Entry>, f1: bool, mid: Loading, e2: seq<Entry>, f2: bool, r: Loading)
    requires LoadOk(ld, e1, f1, mid) && LoadOk(mid, e2, f2, r)
    ensures LoadOk(ld, e1 + e2, f1 && f2, r)
  {
    if !r.raised {
      assert r.engine.gallery == ld.engine.gallery + e1 + e2;
    } else if mid.raised {
      assert (e1 + e2)[..r.loaded - ld.loaded] == e1[..r.loaded - ld.loaded];
    } else {
      assert (e1 + e2)[..r.loaded - ld.loaded] == e1 + e2[..r.loaded - mid.loaded];
    }
  }

  lemma CacheOfSnoc(g: Gallery, x: Entry)
    requires x.photoId.Some?
    ensures CacheOf(g + [x]) == CacheOf(g)[x.photoId.value := x.vector]
  {
    assert (g + [x])[..|g|] == g;
  }

  lemma ValidAppend(e: Engine, x: Entry, id: int)
    requires |x.vector| == EmbeddingSize
    ensures Valid(e) ==> Valid(e.(gallery := e.gallery + [x], cache := e.cache[id := x.vector]))
  {
  }

  /** One stored vector of the embedding length: appended to the gallery and cached under its photo. */
  function LoadVector(ld: Loading, person: Person, photoId: int, v: Vector): (r: Loading)
    requires !ld.raised && |v| == EmbeddingSize
    ensures LoadOk(ld, [StoredEntry(person, photoId, v)], true, r)
  {
    var x := StoredEntry(person, photoId, v);
    CacheOfSnoc(ld.engine.gallery, x);
    ValidAppend(ld.engine, x, photoId);
    Loading(ld.engine.(gallery := ld.engine.gallery + [x], cache := ld.engine.cache[photoId := v]), ld.loaded + 1, false)
  }

  /** A row that loads nothing and does not raise. */
  lemma LoadOkSkip(ld: Loading)
    ensures LoadOk(ld, [], true, ld)
  {
    assert ld.engine.gallery + [] == ld.engine.gallery;
  }

  /** One row: a raising read ends the loop, a stored vector of the embedding length is loaded. */
  function LoadRow(ld: Loading, person: Person, p: Photo): (r: Loading)
    ensures LoadOk(ld, RowEntries(person, [p]), RowsFaultFree([p]), r)
  {
    RowEntriesSingle(person, p);
    if ld.raised then ld
    else
      match p.embedding
      case Fault =>
        assert !RowsFaultFree([p]) by { assert [p][0] == p; }
        ld.(raised := true)
      case Absent =>
        LoadOkSkip(ld);
        ld
      case Found(v) =>
        if |v| == EmbeddingSize then LoadVector(ld, person, p.id, v)
        else LoadOkSkip(ld); ld
  }

  lemma RowEntriesSingle(person: Person, p: Photo)
    ensures RowEntries(person, [p]) ==
      if p.embedding.Found? && |p.embedding.value| == EmbeddingSize then [StoredEntry(person, p.id, p.embedding.value)] else []
  {
    assert [p][1..] == [];
  }

  lemma RowsFaultFreeCons(photos: seq<Photo>)
    requires |photos| > 0
    ensures RowsFaultFree(photos) <==> RowsFaultFree([photos[0]]) && RowsFaultFree(photos[1..])
  {
    if RowsFaultFree(photos[1..]) && RowsFaultFree([photos[0]]) {
      forall j | 0 <= j < |photos| ensures !photos[j].embedding.Fault? {
        if j > 0 { assert photos[j] == photos[1..][j - 1]; } else { assert [photos[0]][0] == photos[0]; }
      }
    }
  }

  lemma RowEntriesCons(person: Person, photos: seq<Photo>)
    requires |photos| > 0
    ensures RowEntries(person, photos) == RowEntries(person, [photos[0]]) + RowEntries(person, photos[1..])
  {
    assert [photos[0]][1..] == [];
  }

  /** The inner loop over one person's rows: the stretch for the person's reference entries. */
  function LoadRows(ld: Loading, person: Person, photos: seq<Photo>): (r: Loading)
    ensures LoadOk(ld, RowEntries(person, photos), RowsFaultFree(photos), r)
    decreases |photos|
  {
    if |photos| == 0 then ld
    else
      var next := LoadRow(ld, person, photos[0]);
      var r := LoadRows(next, person, photos[1..]);
      RowsFaultFreeCons(photos);
      RowEntriesCons(person, photos);
      LoadCompose(ld, RowEntries(person, [photos[0]]), RowsFaultFree([photos[0]]), next,
                  RowEntries(person, photos[1..]), RowsFaultFree(photos[1..]), r);
      r
  }

  lemma FaultFreeCons(st: Store, people: seq<Person>)
    requires |people| > 0
    ensures FaultFree(st, people) <==> RowsFaultFree(PhotosOf(st, people[0].id)) && FaultFree(st, people[1..])
  {
    if FaultFree(st, people[1..]) && RowsFaultFree(PhotosOf(st, people[0].id)) {
      forall i | 0 <= i < |people| ensures RowsFaultFree(PhotosOf(st, people[i].id)) {
        if i > 0 { assert people[i] == people[1..][i - 1]; }
      }
    }
  }

  /** The outer loop over the people: the stretch for every listed person's reference entries. */
  function LoadPeople(ld: Loading, st: Store, people: seq<Person>): (r: Loading)
    ensures LoadOk(ld, StoredEntries(st, people), FaultFree(st, people), r)
    decreases |people|
  {
    if |people| == 0 then ld
    else
      var next := LoadRows(ld, people[0], PhotosOf(st, people[0].id));
      var r := LoadPeople(next, st, people[1..]);
      FaultFreeCons(st, people);
      LoadCompose(ld, RowEntries(people[0], PhotosOf(st, people[0].id)), RowsFaultFree(PhotosOf(st, people[0].id)), next,
                  StoredEntries(st, people[1..]), FaultFree(st, people[1..]), r);
      r
  }

  /** The answer of `load_embeddings_from_database`: the new recognizer and the count returned. */
  datatype Loaded = Loaded(engine: Engine, count: nat)

  /**
   * `load_embeddings_from_database`: empties the gallery and the cache, then
   * enrols every stored vector of the embedding length of every active person.
   * Without a raising read the gallery is exactly the reference entries and the
   * answer is their number; otherwise the answer is 0 while the entries loaded
   * before the raise stay, a prefix of the reference entries. In both cases the cache is
   * the one the gallery's entries determine and the settings are kept.
   */
  function LoadFromStore(e: Engine, st: Store): (r: Loaded)
    ensures FaultFree(st, st.people) ==>
      r.engine.gallery == StoredEntries(st, st.people) && r.count == |r.engine.gallery|
    ensures !FaultFree(st, st.people) ==> r.count == 0
    ensures |r.engine.gallery| <= |StoredEntries(st, st.people)|
    ensures r.engine.gallery == StoredEntries(st, st.people)[..|r.engine.gallery|]
    ensures r.engine.cache == CacheOf(r.engine.gallery)
    ensures SameSettings(r.engine, e)
    ensures Valid(e) ==> Valid(r.engine)
  {
    var start := ClearEmbeddings(e).(cache := map[]);
    var done := LoadPeople(Loading(start, 0, false), st, st.people);
    LoadedPrefix(Loading(start, 0, false), StoredEntries(st, st.people), FaultFree(st, st.people), done);
    Loaded(done.engine, if done.raised then 0 else done.loaded)
  }

  /** A load started on an empty gallery holds a prefix of its entries, whether or not it raised. */
  lemma LoadedPrefix(ld: Loading, entries: seq<Entry>, faultFree: bool, r: Loading)
    requires !ld.raised && ld.engine.gallery == [] && ld.loaded == 0
    requires LoadOk(ld, entries, faultFree, r)
    ensures |r.engine.gallery| <= |entries| && r.engine.gallery == entries[..|r.engine.gallery|]
  {
    if !r.raised {
      assert entries[..|entries|] == entries;
    }
  }

  /** Loading twice from the same store gives the same recognizer and answer as loading once. */
  lemma LoadIdempotent(e: Engine, st: Store)
    ensures LoadFromStore(LoadFromStore(e, st).engine, st) == LoadFromStore(e, st)
  {
    var e1 := LoadFromStore(e, st).engine;
    assert ClearEmbeddings(e1).(cache := map[]) == ClearEmbeddings(e).(cache := map[]);
  }

  /**
   * The cache a gallery determines holds exactly its photo ids, and each cached
   * vector is the vector of an entry for that photo.
   */
  lemma {:induction false} CacheOfMirrors(g: Gallery)
    ensures forall id :: id in CacheOf(g) <==> Some(id) in PhotoIds(g)
    ensures forall id :: id in CacheOf(g) ==> exists i :: 0 <= i < |g| && g[i].photoId == Some(id) && g[i].vector == CacheOf(g)[id]
    decreases |g|
  {
    if |g| > 0 {
      var front := g[..|g| - 1];
      CacheOfMirrors(front);
      assert PhotoIds(g) == PhotoIds(front) + [g[|g| - 1].photoId];
      forall id | id in CacheOf(g)
        ensures exists i :: 0 <= i < |g| && g[i].photoId == Some(id) && g[i].vector == CacheOf(g)[id]
      {
        if g[|g| - 1].photoId == Some(id) {
          assert g[|g| - 1].vector == CacheOf(g)[id];
        } else {
          var i :| 0 <= i < |front| && front[i].photoId == Some(id) && front[i].vector == CacheOf(front)[id];
          assert g[i] == front[i];
        }
      }
    }
  }
}

=== FILE: wrappers.dfy ===
/** Optional values and error results used in place of Python's `None` and exceptions. */
module Wrappers {

  /** `None` stands for Python's `None`; `Some(v)` for a present value. */
  datatype Option<+T> = None | Some(value: T) {

    /** Returns the value in `Some`, or `default` when `None`. */
    function GetOr(default: T): T {
      match this
      case Some(v) => v
      case None => default
    }
  }

  /** A value, or the error that the Python code would have raised instead. */
  datatype Result<+R, +E> = Success(value: R) | Failure(error: E)
}
